=== FILE: README.md ===
# persons-js data-access core, modelled in Dafny

persons-js serves a directory of persons with a directed "contacts"
relation between them. Its data-access core has three parts:

- the **Repository** (`src/repository.js`) owns the relational store, a
  `persons` table and a `contacts(person_id, contact_id)` table;
- the **Cache** (`src/cache.js`) is a key-value read cache of serialized
  persons under `PERSON:<id>` keys, each entry living for 60 seconds;
- the **batch loader** (`src/loaders.js`) answers the contact requests
  collected during one traversal with a single `findContacts` call.

The model is a functional state machine. `State(db, cache)` holds the persons
table (a map from id to `Person`), the contacts relation (a set of
`(person_id, contact_id)` pairs) and the cache (a map from key to
`Entry(document, expiresAt)`). Every write, and `findPersonById` (which may
fill the cache), is a function from a state to a `Reply(value, state)`. The
other reads return their value alone: `getTotalPersonCount` and
`findPersonsPaginated` are functions, and `findContacts` is a method. The
clock is an explicit parameter `now`, counted in milliseconds.

Modules, one per file:

| module | file | what it holds |
|---|---|---|
| `Wrappers` | wrappers.dfy | `Option` and `Result`, with `:-` support |
| `Instants` | instants.dfy | instants and their decimal text form; `Parse` inverts `Render` |
| `Persons` | persons.dfy | `Person`, the update `Patch`, the spread merge `{ ...base, ...patch, modified }` |
| `Codec` | codec.dfy | the JSON object a person is cached as; `Serialize` / `Deserialize` |
| `Cache` | cache.dfy | `IdToKey`, `Get`, `Set`, `Del` with the 60-second expiry |
| `EmailOrder` | email_order.dfy | `ORDER BY email`: the string order, the sorted listing of the table |
| `ContactRows` | contact_rows.dfy | the bucketing loop of `findContacts` over join rows |
| `Repository` | repository.dfy | every repository operation |
| `RepositoryProperties` | repository_properties.dfy | properties relating several operations: cache coherence, invalidation, paging coverage, edge undo |
| `Loaders` | loaders.dfy | the `Person.contacts` batch loader |

The ghost predicate `Repository.Coherent(s, now)` is the central invariant.
It says that every record the cache would serve at `now` is the record the
store holds. In a consistent store (`Repository.Consistent`: each row under
its own id), every operation preserves it, and time passing preserves it as
well. Under it, a lookup returns exactly the store's row.

## Model

| member | source | states |
|---|---|---|
| Cache.IdToKey | src/cache.js:20-22 | the key is the prefix `PERSON:` followed by the id, so the id can be read back from the key |
| Cache.IdToKeyInjective | src/cache.js:20-22 | two ids share a key exactly when they are the same id |
| Instants.Render | src/cache.js:8 | an instant's text is canonical decimal, and it is "0" only for instant 0 |
| Instants.Parse | src/cache.js:15-16 | a text is accepted exactly when it is canonical decimal |
| Instants.ParseIsRenderInverse | src/cache.js:15-16 | parsing a text gives `t` exactly when `t` renders to that text |
| Codec.MemberNameInjective | src/cache.js:8 | each column is written under a member name of its own |
| Codec.RoundTrip | src/cache.js:7-18 | decoding a record's encoding gives the record back, `created` and `modified` included |
| Codec.DeserializeSound | src/cache.js:11-18 | any document that decodes to a record is exactly that record's encoding |
| Codec.DeserializeInvertsSerialize | src/cache.js:7-18 | a document decodes to `p` if and only if it is the encoding of `p` |
| Codec.SerializeInjective | src/cache.js:7-9 | two records have the same encoding if and only if they are equal |
| Cache.Get | src/cache.js:24-32 | a hit needs a present, unexpired key, and the returned record is what that entry encodes |
| Cache.Set | src/cache.js:34-38 | the person's key now expires 60 s × 1000 ms after `now`; every other key is untouched |
| Cache.Del | src/cache.js:40-43 | the id's key is gone; every other key is untouched |
| Cache.GetAfterSet | src/cache.js:24-38 | up to and including the expiry instant that `set(p)` wrote, `get(p.id)` returns `p` |
| Cache.GetAfterSetExpires | src/cache.js:34-36 | once the clock is past that expiry, `get(p.id)` returns absent |
| Cache.SetLastWriteWins | src/cache.js:34-38 | after two sets for the same id, `get` returns the later record |
| Cache.GetAfterDel | src/cache.js:40-43 | after `del(id)`, `get(id)` is absent at every instant |
| Cache.DelMissingIsNoop | src/cache.js:40-43 | deleting a key that is not there leaves the store as it was |
| Cache.SetLeavesOtherIds | src/cache.js:34-38 | `set` for one id does not change `get` for any other id |
| Cache.DelLeavesOtherIds | src/cache.js:40-43 | `del` for one id does not change `get` for any other id |
| Cache.GetLaterImpliesEarlier | src/cache.js:24-32 | for the same cache contents, a record readable at one clock value is readable, and the same, at any earlier clock value |
| Persons.Merge | src/repository.js:112 | each supplied field overrides the base, each unsupplied field keeps the base value, `id` comes from the patch, `created` is kept and `modified` is `now` |
| Persons.MergeCompose | src/repository.js:112 | two merges in a row equal one merge of the composed patch |
| Persons.MergeIdempotent | src/repository.js:112 | re-applying a patch at the same instant changes nothing |
| Persons.MergeEmptyPatch | src/repository.js:112 | a patch that supplies nothing only moves `modified` and sets `id` to the patch's id |
| Persons.MergeKeepsValid | src/schema.js:104-121 | a patch within the schema's length limits, merged over a record within them, stays within them |
| EmailOrder.StrLeTotal | src/repository.js:86-87 | any two emails are comparable |
| EmailOrder.StrLeAntisymmetric | src/repository.js:86-87 | two emails each ordered before the other are equal |
| EmailOrder.StrLeTransitive | src/repository.js:86-87 | the email order is transitive |
| EmailOrder.RankLeTotal | src/repository.js:86-87 | the listing order (by email, ties broken by id) is total on the table |
| EmailOrder.FirstExists | src/repository.js:86-87 | every non-empty set of rows has a row that the order puts first |
| EmailOrder.FirstUnique | src/repository.js:86-87 | that first row is unique |
| EmailOrder.SortKeys | src/repository.js:86-87 | the sorted keys are a duplicate-free enumeration of the given keys, ordered pairwise by the listing order |
| EmailOrder.ListingAt | src/repository.js:79-92 | listing position `i` holds the row of the `i`-th key in listing order |
| EmailOrder.ListingAscending | src/repository.js:79-92 | the listing's emails never decrease |
| Repository.InsertPerson | src/repository.js:25-48 | a new id adds exactly that row and returns it, leaving other rows, the edges and the cache alone; an existing id is refused with a unique violation and nothing changes |
| Repository.GetTotalPersonCount | src/repository.js:50-53 | the count is the number of rows the listing runs through |
| Repository.FindPersonById | src/repository.js:55-77 | a live cache entry is returned with no state change; on a miss the stored row is returned and is then served by the cache; an unknown id returns absent and changes nothing |
| Repository.Page | src/repository.js:79-92 | a page is the slice of the listing from `offset`, of length `min(limit, max(0, n − offset))` |
| Repository.PageAscending | test/persons.test.js:51-55 | every page's emails are non-decreasing |
| Repository.FindPersonsPaginated | src/repository.js:79-92 | defaults 10/0; a negative offset or limit is refused (offset first); otherwise the result is the listing slice of the stated length, emails non-decreasing |
| Repository.RemovePersonById | src/repository.js:94-107 | under a restricting delete rule, deleting a stored person an edge still touches fails with a foreign-key violation and changes nothing, the cache entry included; otherwise it returns the row as it was, or absent, the id leaves the table, no other row changes, exactly the edges touching a deleted person go (none under the restricting rule), and the cache key is removed |
| Repository.UpdatePerson | src/repository.js:109-141 | an unknown id returns absent and changes nothing; otherwise the patch is merged over the cached copy if live, else the stored row, keeping the stored `id`/`created`; that row is written, edges stay, and the cache key is removed |
| Repository.InsertContact | src/repository.js:163-184 | returns true exactly when both endpoints exist and the store raises no error, and then adds the edge; otherwise the state is unchanged |
| Repository.RemoveContact | src/repository.js:186-196 | returns true exactly when the edge existed; removes exactly that edge |
| Repository.JoinRows | src/repository.js:143-154 | every join row's owner is one of the requested ids |
| Repository.ListingCount | src/repository.js:79-92 | in a consistent store the listing holds each stored row exactly once and nothing else |
| Repository.DirectContactsMembers | src/repository.js:146-151 | in a consistent store, `p` is a direct contact of `owner` exactly when the edge `(owner, p.id)` exists and `p` is the stored row |
| Repository.BucketIsDirectContacts | src/repository.js:143-161 | in a consistent store, the bucket of a requested owner holds each of its direct contacts exactly once |
| Repository.FindContacts | src/repository.js:143-161 | one bucket per id; a first occurrence gets exactly its direct contacts, each once; a repeated id gets `[]`; all buckets together hold exactly the join rows' contacts |
| ContactRows.FindIndex | src/repository.js:158 | -1 exactly when the id is absent, otherwise the first position holding it |
| ContactRows.GroupByOwner | src/repository.js:155-160 | succeeds exactly when every row's owner was requested (else names an offending row); one bucket per id, a first occurrence gets the owner's contacts in row order, a repeat gets `[]`, and the buckets together hold every row's contact |
| ContactRows.ContactsOfCount | src/repository.js:156-159 | the number of times `p` lands in an owner's bucket is the number of `(owner, p)` rows |
| ContactRows.BucketsIgnoreRowOrder | src/repository.js:143-160 | bucket contents, as multisets, do not depend on the order the store returns rows in |
| RepositoryProperties.CacheHitIgnoresStore | src/repository.js:56-59 | on a cache hit the reply is the same whatever the store holds, and the cache is unchanged |
| RepositoryProperties.RepeatLookupHitsCache | test/person.test.js:41-48 | a lookup that went to the store is answered identically by the cache for the next 60 seconds |
| RepositoryProperties.CoherentLater | src/cache.js:34-36 | a coherent cache stays coherent as time passes |
| RepositoryProperties.CoherentLookupIsStoreLookup | src/repository.js:55-77 | with a coherent cache a lookup returns exactly the store's row, or absent |
| RepositoryProperties.FindPersonByIdKeepsCoherent | src/repository.js:72-76 | in a consistent store (each row under its own id), a lookup keeps the cache coherent |
| RepositoryProperties.FindLeavesOtherIds | src/repository.js:55-77 | a lookup changes the cache entry of at most the stored row's id; every other id reads the same afterwards |
| RepositoryProperties.InsertPersonKeepsInvariants | src/repository.js:25-48 | inserting keeps the store consistent and the cache coherent |
| RepositoryProperties.RemoveInvalidates | test/person.test.js:152-156 | after a delete that goes through the id is found neither in the store nor in the cache; a refused delete changes nothing; no other cached id changes either way |
| RepositoryProperties.RemovePersonKeepsInvariants | src/repository.js:94-107 | deleting, refused or not, keeps the store consistent and the cache coherent |
| RepositoryProperties.WritesKeepEdgesResolved | src/repository.js:25-196 | if every edge joins two stored persons, it still does after any write: a cascading delete takes the person's edges with it, a restricted one is refused, and an edge is only added between stored persons |
| RepositoryProperties.UpdateThenLookupSeesWrite | test/person.test.js:121-125 | right after an update, a lookup returns the written row, never a stale cached copy |
| RepositoryProperties.UpdateWithCoherentCache | test/person.test.js:82-99 | with a coherent cache an update writes the patch merged over the stored row, keeping the stored id |
| RepositoryProperties.UpdateMergesOverCachedCopy | src/repository.js:111-112 | an unsupplied `name` takes the cached copy's value, even when the store differs |
| RepositoryProperties.UpdatePersonKeepsInvariants | src/repository.js:109-141 | updating keeps the store consistent and the cache coherent |
| RepositoryProperties.UpdateTwiceComposes | src/repository.js:109-141 | in a consistent store with a coherent cache, two updates of one record in a row write what one update with the composed patch writes at the later instant: the later patch wins field by field |
| RepositoryProperties.UpdateRepeatedIsStable | src/repository.js:109-141 | repeating an update at the same instant writes the same row again |
| RepositoryProperties.UpdateLeavesOtherIds | src/repository.js:109-141 | an update changes the cache entries of at most its own id and the stored row's id; every other id reads the same afterwards |
| RepositoryProperties.UpdateKeepsCreatedBeforeModified | test/person.test.js:109-119 | after an update `created` is unchanged and not after `modified`, which is `now` |
| RepositoryProperties.ContactOpsKeepInvariants | src/repository.js:163-196 | edge insertion and removal keep the store consistent and the cache coherent |
| RepositoryProperties.RemoveContactTwice | src/repository.js:186-196 | a second removal of the same edge returns false and changes nothing |
| RepositoryProperties.InsertThenRemoveContact | src/repository.js:163-196 | inserting a new edge and removing it again returns true and restores the state |
| RepositoryProperties.InsertContactIsDirected | src/repository.js:163-173 | inserting `(p, c)` does not add `(c, p)` |
| RepositoryProperties.NextPage | test/persons.test.js:42-47 | with distinct emails, the page at offset "rows fetched so far" extends the fetched prefix of the listing by at least one row |
| RepositoryProperties.FetchFromPrefix | test/persons.test.js:42-47 | with distinct emails, paging on from any fetched prefix of the listing ends with the whole listing |
| RepositoryProperties.PagingReturnsListing | test/persons.test.js:42-47 | with distinct emails, paging from offset 0 with a fixed page size returns the whole listing, in order |
| RepositoryProperties.EmailSet | test/persons.test.js:48 | an email is in the set exactly when some fetched row carries it |
| RepositoryProperties.DistinctEmailCount | test/persons.test.js:48 | rows with pairwise distinct emails give as many distinct emails as rows |
| RepositoryProperties.PagingCoversEveryRecordOnce | test/persons.test.js:37-49 | with distinct emails, paging fetches as many rows and as many distinct emails as the total count, and every stored row among them |
| RepositoryProperties.InsertLookupUpdateLookup | test/person.test.js:41-125 | insert, look up twice (the second from the cache), rename, look up: the stored row is served, then the renamed one, and `created` is kept |
| Loaders.BatchIds | src/loaders.js:5 | the batch's ids are the queries' person ids, position by position |
| Loaders.PersonContacts | src/loaders.js:3-7 | one answer per query; the first query for a person gets exactly that person's direct contacts; a repeated person gets `[]`; all answers together hold exactly the join rows' contacts |
| Loaders.RepeatIsNotFirst | src/repository.js:158 | a query repeating an earlier query's person is not answered with contacts |
| Loaders.FirstRequestIsFirst | src/repository.js:158 | the first query naming a person is the one answered with contacts |

## Left out

- Connection handling, query timing and logging (`query`, every `log.*` call) are I/O plumbing. Each SQL statement is modelled as one step on maps and sets.
- Key-value server transport and wall-clock expiry: the clock is the explicit millisecond parameter `now`. An entry is live until `now` is strictly past its expiry, as the key-value server decides it; a millisecond clock stands in for the server's clock.
- `findPersonById` does not await `cache.set`. The set is modelled as taking effect at once; the races this allows are concurrency and are not modelled.
- JSON text syntax: a cached value is modelled as the JSON object itself (a map from member to string-or-null), not as its text.
- Timestamps are ISO-8601 text in the cache and `Date` objects in memory. The model keeps instants as milliseconds and their text as canonical decimal. In JavaScript only date → text → date is exact: `new Date` also accepts texts `toISOString` never writes. The model's `Parse` accepts only rendered texts, and only texts written by `Set` are ever read.
- `birthdate` is kept as the text the store returns. Calendar-date validation is not modelled.
- Postgres collation and tie order for `ORDER BY email`: the model uses lexicographic order by character code, breaking ties by id. A JavaScript `sort()` compares UTF-16 code units, which differs only outside the Basic Multilingual Plane. Postgres does not promise a tie order, so the paging lemmas (`NextPage`, `FetchFromPrefix`, `PagingReturnsListing`, `PagingCoversEveryRecordOnce`) are stated only for tables with distinct emails.
- `COUNT(*)` comes back as a bigint string. The model returns a `nat`.
- Repository.FindPersonsPaginated: an absent argument takes its default, but an explicit `null` limit or offset (which the store reads as "no limit" / "no offset") is not modelled. The GraphQL schema makes both arguments required (`src/schema.js:14`).
- `Codec.Deserialize` refuses documents that no serialized row could produce, where the source would build a partial object. Only documents written by `Set` are ever read.
- Repository.FindContacts: the store returns join rows in no fixed order. The model fixes one enumeration (`JoinRows`) and proves, through `ContactRows.BucketsIgnoreRowOrder`, that bucket contents as multisets do not depend on it. The order of rows inside a bucket is therefore not promised.
- Repository.FindContacts: the bucket contents are stated under `Consistent(db)` (each row stored under its own id), which every operation keeps.
- Loaders.PersonContacts: the single `findContacts` call per batch shows in the body; no contract counts store calls.
- The contacts table's definition is not part of this model. The relation is a set. With `fault = None`, inserting an existing edge returns true and adds nothing. If the table has a key on `(person_id, contact_id)`, the store raises 23505 instead, the `catch` swallows it and the reply is `undefined`; that run is the `fault = Some(UniqueViolation)` instance of `Repository.InsertContact`.
- Repository.RemovePersonById: the ON DELETE rule of the contacts table's foreign keys is a parameter, `Cascade` or `Restrict`. A refused delete is a `Failure(ForeignKeyViolation)` reply; in the source it is a rejected promise.
- Ids are compared as exact text, in the store and in the cache key alike. The persons table's definition is not part of this model; ids are generated as UUIDs (`src/resolvers.js:27`), which suggests a `uuid` column. Such a column would change three things. A malformed id would make every query fail with 22P02, where the model reports absent or false. An upper-case, braced or hyphen-less spelling would match the stored row while the cache key, built from the text as given, would not: `removePersonById` and `updatePerson` would then delete a key the lookup never wrote, and the row's cached copy would be served for up to 60 seconds. The same spelling would make `findContacts` fail in its grouping loop, because `findIndex` compares with `===` against the canonical text the store returns. The model's ids are the store's canonical text.
- Store failures other than a missing endpoint are a parameter of `insertContact` only. For the other operations, connection loss and similar errors are not modelled.
- An update that sets a required field (`name`, `surname`, `email`) to an explicit null is refused by the store's NOT NULL constraints. The patch type cannot express it.
- Resolvers, schema wiring, configuration and server start-up (`src/resolvers.js`, `src/schema.js`, `src/config.js`, `src/app.js`, `src/main.js`) are not part of this model. The schema's length limits appear only as `Persons.ValidPerson` and `Persons.ValidPatch`.

## Notes on the source

- `insertContact` catches every error, not only foreign-key violations: the `catch` block logs 23503 and swallows everything else too, returning `undefined`. The model follows the code. Any store fault makes the reply falsy and leaves the edges unchanged.
- `findPersonById` caches the row under the row's own `id` rather than the requested id. In the model ids are compared as exact text, so the two are equal in a consistent store, and the lookup contract is stated with the row's id. Under a `uuid` column they can differ in spelling (see "## Left out").

=== FILE: cache.dfy ===
/**
 * The read cache: a key-value store of serialized persons, each entry with
 * an expiry instant. The key-value server's wall clock is the explicit
 * parameter `now`; an entry is visible until `now` passes its expiry.
 */
module Cache {
  import opened Wrappers
  import opened Instants
  import opened Persons
  import opened Codec

  /** The scheme prefix every person key carries. */
  const KeyPrefix: string := "PERSON:"

  /** `SET key value EX 60`. */
  const ExpirySeconds: nat := 60

  const MillisPerSecond: nat := 1000

  datatype Entry = Entry(value: Document, expiresAt: Instant)

  /** The key-value store, as far as this core uses it. */
  type Store = map<string, Entry>

  /** The key a person's entry lives under: the prefix followed by the id. */
  function IdToKey(id: Id): (key: string)
    ensures |key| == |KeyPrefix| + |id|
    ensures key[..|KeyPrefix|] == KeyPrefix && key[|KeyPrefix|..] == id
  {
    KeyPrefix + id
  }

  /** Distinct ids never share a key. */
  lemma IdToKeyInjective(a: Id, b: Id)
    ensures IdToKey(a) == IdToKey(b) <==> a == b
  {
    if IdToKey(a) == IdToKey(b) {
      assert a == IdToKey(a)[|KeyPrefix|..];
    }
  }

  /**
   * Whether `key` holds an entry that has not yet expired at `now`. The
   * key-value server drops a key only once its clock is strictly past the
   * expiry, so the entry is still served at the expiry instant itself.
   */
  predicate Live(store: Store, now: Instant, key: string) {
    key in store && now <= store[key].expiresAt
  }

  /** `get(id)`: the decoded record under the id's key, or absent when the key is missing or expired. */
  function Get(store: Store, now: Instant, id: Id): (r: Option<Person>)
    ensures r.Some? ==> Live(store, now, IdToKey(id))
    ensures r.Some? ==> store[IdToKey(id)].value == Serialize(r.value)
  {
    var key := IdToKey(id);
    if Live(store, now, key) then
      var r := Deserialize(store[key].value);
      if r.Some? then DeserializeSound(store[key].value, r.value); r else r
    else None
  }

  /** `set(person)`: store the encoding under the person's key for the next 60 seconds, replacing any entry. */
  function Set(store: Store, now: Instant, p: Person): (store': Store)
    ensures IdToKey(p.id) in store'
    ensures store'[IdToKey(p.id)].expiresAt == now + ExpirySeconds * MillisPerSecond
    ensures forall key :: key != IdToKey(p.id) ==> (key in store' <==> key in store)
    ensures forall key :: key != IdToKey(p.id) && key in store ==> store'[key] == store[key]
  {
    store[IdToKey(p.id) := Entry(Serialize(p), now + ExpirySeconds * MillisPerSecond)]
  }

  /** `del(id)`: remove the id's key, whether or not it is there. */
  function Del(store: Store, id: Id): (store': Store)
    ensures IdToKey(id) !in store'
    ensures forall key :: key != IdToKey(id) ==> (key in store' <==> key in store)
    ensures forall key :: key != IdToKey(id) && key in store ==> store'[key] == store[key]
  {
    store - {IdToKey(id)}
  }

  /** Up to and including 60 seconds after `set(p)`, `get(p.id)` returns `p`. */
  lemma GetAfterSet(store: Store, setAt: Instant, now: Instant, p: Person)
    requires setAt <= now <= setAt + ExpirySeconds * MillisPerSecond
    ensures Get(Set(store, setAt, p), now, p.id) == Some(p)
  {
    RoundTrip(p);
  }

  /** Once more than 60 seconds have passed since `set(p)`, `get(p.id)` returns absent. */
  lemma GetAfterSetExpires(store: Store, setAt: Instant, now: Instant, p: Person)
    requires now > setAt + ExpirySeconds * MillisPerSecond
    ensures Get(Set(store, setAt, p), now, p.id) == None
  {
  }

  /** The later of two sets for the same id wins. */
  lemma SetLastWriteWins(store: Store, t1: Instant, t2: Instant, now: Instant, p: Person, q: Person)
    requires p.id == q.id && t2 <= now <= t2 + ExpirySeconds * MillisPerSecond
    ensures Get(Set(Set(store, t1, p), t2, q), now, p.id) == Some(q)
  {
    RoundTrip(q);
  }

  /** After `del(id)`, `get(id)` returns absent at every instant. */
  lemma GetAfterDel(store: Store, now: Instant, id: Id)
    ensures Get(Del(store, id), now, id) == None
  {
  }

  /** `del` of a key that is not there changes nothing. */
  lemma DelMissingIsNoop(store: Store, id: Id)
    requires IdToKey(id) !in store
    ensures Del(store, id) == store
  {
  }

  /** `set` for one id does not change what `get` returns for another. */
  lemma SetLeavesOtherIds(store: Store, setAt: Instant, now: Instant, p: Person, id: Id)
    requires id != p.id
    ensures Get(Set(store, setAt, p), now, id) == Get(store, now, id)
  {
    IdToKeyInjective(id, p.id);
  }

  /** `del` for one id does not change what `get` returns for another. */
  lemma DelLeavesOtherIds(store: Store, now: Instant, removed: Id, id: Id)
    requires id != removed
    ensures Get(Del(store, removed), now, id) == Get(store, now, id)
  {
    IdToKeyInjective(id, removed);
  }

  /** An entry visible now was visible at every earlier instant. */
  lemma GetLaterImpliesEarlier(store: Store, earlier: Instant, now: Instant, id: Id)
    requires earlier <= now && Get(store, now, id).Some?
    ensures Get(store, earlier, id) == Get(store, now, id)
  {
  }
}

=== FILE: codec.dfy ===
/**
 * The cache's encoding of a Person.
 *
 * `serialize` is `JSON.stringify` of the row: every column becomes a JSON
 * member, NULL becomes `null` and each timestamp becomes its text.
 * `deserialize` is `JSON.parse` followed by turning `modified` and `created`
 * (and only those) back into instants. The model keeps the parsed JSON object
 * rather than its text, its member names drawn from a closed enumeration.
 */
module Codec {
  import opened Wrappers
  import opened Instants
  import opened Persons

  /** A JSON member value as it occurs in a serialized row. */
  datatype Json = JNull | JStr(text: string)

  /** The members of a serialized row: one per selected column. */
  datatype Field = IdField | NameField | SurnameField | EmailField | PhoneField
                 | GenderField | BirthdateField | ModifiedField | CreatedField

  /** A flat JSON object, its member names drawn from the columns. */
  type Document = map<Field, Json>

  /** The member name JSON.stringify writes for each column. */
  function MemberName(f: Field): string {
    match f
    case IdField => "id"
    case NameField => "name"
    case SurnameField => "surname"
    case EmailField => "email"
    case PhoneField => "phone"
    case GenderField => "gender"
    case BirthdateField => "birthdate"
    case ModifiedField => "modified"
    case CreatedField => "created"
  }

  /** Each column is written under its own member name, so a document keyed by column is the JSON object itself. */
  lemma MemberNameInjective(f: Field, g: Field)
    ensures MemberName(f) == MemberName(g) <==> f == g
  {
  }

  function GenderName(g: Gender): string {
    match g
    case Male => "male"
    case Female => "female"
  }

  function NullableText(o: Option<string>): Json {
    match o
    case None => JNull
    case Some(s) => JStr(s)
  }

  function NullableGender(o: Option<Gender>): Json {
    match o
    case None => JNull
    case Some(g) => JStr(GenderName(g))
  }

  /** The JSON object a row is stored as: every column present, NULL as `null`. */
  function Serialize(p: Person): Document
  {
    map[
      IdField := JStr(p.id),
      NameField := JStr(p.name),
      SurnameField := JStr(p.surname),
      EmailField := JStr(p.email),
      PhoneField := NullableText(p.phone),
      GenderField := NullableGender(p.gender),
      BirthdateField := NullableText(p.birthdate),
      ModifiedField := JStr(Render(p.modified)),
      CreatedField := JStr(Render(p.created))
    ]
  }

  function AsText(j: Json): Option<string> {
    match j
    case JStr(s) => Some(s)
    case JNull => None
  }

  function AsNullableText(j: Json): Option<Option<string>> {
    match j
    case JNull => Some(None)
    case JStr(s) => Some(Some(s))
  }

  function AsNullableGender(j: Json): Option<Option<Gender>> {
    match j
    case JNull => Some(None)
    case JStr(s) =>
      if s == "male" then Some(Some(Male))
      else if s == "female" then Some(Some(Female))
      else None
  }

  /** `new Date(text)`: the only conversion the decoder applies, used for `modified` and `created`. */
  function AsInstant(j: Json): Option<Instant> {
    match j
    case JStr(s) => Parse(s)
    case JNull => None
  }

  predicate HasAllFields(d: Document) {
    forall f: Field :: f in d
  }

  /** Rebuilds a row from its JSON object; a document no serialized row could produce is refused. */
  function Deserialize(d: Document): (r: Option<Person>)
    ensures r.Some? ==> HasAllFields(d)
    ensures r.Some? ==> AsInstant(d[ModifiedField]) == Some(r.value.modified)
    ensures r.Some? ==> AsInstant(d[CreatedField]) == Some(r.value.created)
  {
    if !HasAllFields(d) then None
    else
      var id :- AsText(d[IdField]);
      var name :- AsText(d[NameField]);
      var surname :- AsText(d[SurnameField]);
      var email :- AsText(d[EmailField]);
      var phone :- AsNullableText(d[PhoneField]);
      var gender :- AsNullableGender(d[GenderField]);
      var birthdate :- AsNullableText(d[BirthdateField]);
      var modified :- AsInstant(d[ModifiedField]);
      var created :- AsInstant(d[CreatedField]);
      Some(Person(id, name, surname, email, phone, gender, birthdate, modified, created))
  }

  lemma SerializeHasAllFields(p: Person)
    ensures HasAllFields(Serialize(p))
  {
    var d := Serialize(p);
    forall f: Field
      ensures f in d
    {
      match f
      case IdField =>
      case NameField =>
      case SurnameField =>
      case EmailField =>
      case PhoneField =>
      case GenderField =>
      case BirthdateField =>
      case ModifiedField =>
      case CreatedField =>
    }
  }

  /** Decoding what was encoded gives the same record back, timestamps included. */
  lemma RoundTrip(p: Person)
    ensures Deserialize(Serialize(p)) == Some(p)
  {
    ParseRender(p.modified);
    ParseRender(p.created);
    SerializeHasAllFields(p);
  }

  /** The member values a decoded record was read from. */
  lemma DeserializedMembers(d: Document, p: Person)
    requires Deserialize(d) == Some(p)
    ensures HasAllFields(d)
    ensures d[IdField] == JStr(p.id) && d[NameField] == JStr(p.name)
    ensures d[SurnameField] == JStr(p.surname) && d[EmailField] == JStr(p.email)
    ensures d[PhoneField] == NullableText(p.phone) && d[GenderField] == NullableGender(p.gender)
    ensures d[BirthdateField] == NullableText(p.birthdate)
  {
  }

  /** Whatever decodes to a record is exactly that record's encoding. */
  lemma DeserializeSound(d: Document, p: Person)
    requires Deserialize(d) == Some(p)
    ensures d == Serialize(p)
  {
    DeserializedMembers(d, p);
    ParseIsRenderInverse(d[ModifiedField].text, p.modified);
    ParseIsRenderInverse(d[CreatedField].text, p.created);
    var e := Serialize(p);
    SerializeHasAllFields(p);
    forall f: Field
      ensures d[f] == e[f]
    {
      match f
      case IdField =>
      case NameField =>
      case SurnameField =>
      case EmailField =>
      case PhoneField =>
      case GenderField =>
      case BirthdateField =>
      case ModifiedField =>
      case CreatedField =>
    }
    assert d.Keys == e.Keys;
  }

  /** A document decodes to `p` exactly when it is `p`'s encoding. */
  lemma DeserializeInvertsSerialize(d: Document, p: Person)
    ensures Deserialize(d) == Some(p) <==> d == Serialize(p)
  {
    if Deserialize(d) == Some(p) {
      DeserializeSound(d, p);
    }
    if d == Serialize(p) {
      RoundTrip(p);
    }
  }

  /** Distinct records are stored as distinct documents. */
  lemma SerializeInjective(p: Person, q: Person)
    ensures Serialize(p) == Serialize(q) <==> p == q
  {
    if Serialize(p) == Serialize(q) {
      RoundTrip(p);
      RoundTrip(q);
    }
  }
}

=== FILE: contact_rows.dfy ===
/**
 * Grouping the rows of the contacts join back onto the requested ids.
 *
 * The join returns an unordered bag of (owner, contact) rows. Each row is
 * pushed onto the bucket at the FIRST position whose id equals its owner;
 * a later position holding the same id keeps an empty bucket.
 */
module ContactRows {
  import opened Wrappers
  import opened Persons

  /** One row of the join: `contacts.person_id` and the contact's full row. */
  datatype ContactRow = ContactRow(owner: Id, contact: Person)

  /**
   * A row whose owner is not among the requested ids: `findIndex` yields -1
   * and pushing onto `result[-1]` throws a TypeError.
   */
  datatype GroupingError = OwnerNotRequested(owner: Id)

  /** `ids.findIndex((x) => x === id)`: the first position holding `id`, or -1. */
  function FindIndex(ids: seq<Id>, id: Id): (i: int)
    ensures -1 <= i < |ids|
    ensures i == -1 <==> id !in ids
    ensures 0 <= i ==> ids[i] == id && forall j :: 0 <= j < i ==> ids[j] != id
  {
    if |ids| == 0 then -1
    else if ids[0] == id then 0
    else
      var i := FindIndex(ids[1..], id);
      if i == -1 then -1 else i + 1
  }

  /** Whether position `i` is the first one holding its id. */
  predicate FirstOccurrence(ids: seq<Id>, i: nat)
    requires i < |ids|
  {
    FindIndex(ids, ids[i]) == i
  }

  /** The contacts the rows give `owner`, in row order. */
  function ContactsOf(rows: seq<ContactRow>, owner: Id): seq<Person> {
    if rows == [] then []
    else
      var last := rows[|rows| - 1];
      ContactsOf(rows[..|rows| - 1], owner) + (if last.owner == owner then [last.contact] else [])
  }

  /** The contact column of the rows. */
  function Contacts(rows: seq<ContactRow>): (r: seq<Person>)
    ensures |r| == |rows|
    ensures forall i :: 0 <= i < |rows| ==> r[i] == rows[i].contact
  {
    if rows == [] then [] else Contacts(rows[..|rows| - 1]) + [rows[|rows| - 1].contact]
  }

  /** Everything in all buckets together. */
  function Union(buckets: seq<seq<Person>>): multiset<Person> {
    if buckets == [] then multiset{}
    else Union(buckets[..|buckets| - 1]) + multiset(buckets[|buckets| - 1])
  }

  lemma {:induction false} UnionOfEmpty(n: nat)
    ensures Union(seq(n, _ => [])) == multiset{}
  {
    if n > 0 {
      var bs: seq<seq<Person>> := seq(n, _ => []);
      assert bs[..n - 1] == seq(n - 1, _ => []);
      UnionOfEmpty(n - 1);
    }
  }

  lemma {:induction false} UnionAfterPush(buckets: seq<seq<Person>>, i: nat, p: Person)
    requires i < |buckets|
    ensures Union(buckets[i := buckets[i] + [p]]) == Union(buckets) + multiset{p}
    decreases |buckets|
  {
    var n := |buckets|;
    var after := buckets[i := buckets[i] + [p]];
    if i == n - 1 {
      assert after[..n - 1] == buckets[..n - 1];
    } else {
      assert after[..n - 1] == buckets[..n - 1][i := buckets[i] + [p]];
      UnionAfterPush(buckets[..n - 1], i, p);
    }
  }

  /** Every row's owner is one of the requested ids (the query's filter guarantees it). */
  predicate OwnersRequested(ids: seq<Id>, rows: seq<ContactRow>) {
    forall k :: 0 <= k < |rows| ==> rows[k].owner in ids
  }

  lemma OwnersRequestedAfterPush(ids: seq<Id>, rows: seq<ContactRow>, row: ContactRow)
    requires OwnersRequested(ids, rows) && row.owner in ids
    ensures OwnersRequested(ids, rows + [row])
  {
  }

  /** `buckets` holds, per position, what grouping `rows` so far gives it. */
  predicate Grouped(ids: seq<Id>, rows: seq<ContactRow>, buckets: seq<seq<Person>>) {
    && |buckets| == |ids|
    && (forall i :: 0 <= i < |ids| && FirstOccurrence(ids, i) ==> buckets[i] == ContactsOf(rows, ids[i]))
    && (forall i :: 0 <= i < |ids| && !FirstOccurrence(ids, i) ==> buckets[i] == [])
  }

  lemma GroupedInitially(ids: seq<Id>)
    ensures Grouped(ids, [], seq(|ids|, _ => []))
  {
  }

  lemma GroupedAfterPush(ids: seq<Id>, rows: seq<ContactRow>, buckets: seq<seq<Person>>, row: ContactRow)
    requires Grouped(ids, rows, buckets) && row.owner in ids
    ensures Grouped(ids, rows + [row], buckets[FindIndex(ids, row.owner) := buckets[FindIndex(ids, row.owner)] + [row.contact]])
  {
    var rows' := rows + [row];
    assert rows'[..|rows'| - 1] == rows;
    var idx := FindIndex(ids, row.owner);
    var after := buckets[idx := buckets[idx] + [row.contact]];
    forall i | 0 <= i < |ids| && FirstOccurrence(ids, i)
      ensures after[i] == ContactsOf(rows', ids[i])
    {
      if ids[i] == row.owner {
        assert i == idx;
      }
    }
  }

  lemma ContactsAfterPush(rows: seq<ContactRow>, row: ContactRow)
    ensures multiset(Contacts(rows + [row])) == multiset(Contacts(rows)) + multiset{row.contact}
  {
    var rows' := rows + [row];
    assert rows'[..|rows'| - 1] == rows;
  }

  lemma UnrequestedOwner(ids: seq<Id>, rows: seq<ContactRow>, k: nat)
    requires k < |rows| && rows[k].owner !in ids
    ensures !OwnersRequested(ids, rows)
  {
  }

  /** Pushing one more row keeps the grouping invariants. */
  lemma PushRow(ids: seq<Id>, done: seq<ContactRow>, row: ContactRow, buckets: seq<seq<Person>>)
    requires row.owner in ids
    requires OwnersRequested(ids, done)
    requires Grouped(ids, done, buckets)
    requires Union(buckets) == multiset(Contacts(done))
    ensures var idx := FindIndex(ids, row.owner);
      var after := buckets[idx := buckets[idx] + [row.contact]];
      && OwnersRequested(ids, done + [row])
      && Grouped(ids, done + [row], after)
      && Union(after) == multiset(Contacts(done + [row]))
  {
    OwnersRequestedAfterPush(ids, done, row);
    GroupedAfterPush(ids, done, buckets, row);
    ContactsAfterPush(done, row);
    UnionAfterPush(buckets, FindIndex(ids, row.owner), row.contact);
  }

  lemma TakeOneMore<T>(s: seq<T>, k: nat)
    requires k < |s|
    ensures s[..k + 1] == s[..k] + [s[k]]
  {
  }

  /** One turn of the grouping loop, over the rows seen so far, keeps its invariants. */
  lemma PushStep(ids: seq<Id>, rows: seq<ContactRow>, k: nat, buckets: seq<seq<Person>>)
    requires k < |rows| && rows[k].owner in ids
    requires OwnersRequested(ids, rows[..k])
    requires Grouped(ids, rows[..k], buckets)
    requires Union(buckets) == multiset(Contacts(rows[..k]))
    ensures var idx := FindIndex(ids, rows[k].owner);
      var after := buckets[idx := buckets[idx] + [rows[k].contact]];
      && OwnersRequested(ids, rows[..k + 1])
      && Grouped(ids, rows[..k + 1], after)
      && Union(after) == multiset(Contacts(rows[..k + 1]))
  {
    TakeOneMore(rows, k);
    PushRow(ids, rows[..k], rows[k], buckets);
  }

  /**
   * The loop of `findContacts`: start with one empty bucket per id and push
   * each row's contact onto the bucket at the first index of its owner.
   */
  method GroupByOwner(ids: seq<Id>, rows: seq<ContactRow>) returns (r: Result<seq<seq<Person>>, GroupingError>)
    ensures r.Success? <==> OwnersRequested(ids, rows)
    ensures r.Failure? ==>
      exists k :: 0 <= k < |rows| && rows[k].owner !in ids && r.error == OwnerNotRequested(rows[k].owner)
    ensures r.Success? ==> |r.value| == |ids|
    ensures r.Success? ==> Union(r.value) == multiset(Contacts(rows))
    ensures r.Success? ==> forall i :: 0 <= i < |ids| && FirstOccurrence(ids, i) ==> r.value[i] == ContactsOf(rows, ids[i])
    ensures r.Success? ==> forall i :: 0 <= i < |ids| && !FirstOccurrence(ids, i) ==> r.value[i] == []
  {
    var buckets: seq<seq<Person>> := seq(|ids|, _ => []);
    GroupedInitially(ids);
    UnionOfEmpty(|ids|);
    var k := 0;
    while k < |rows|
      invariant 0 <= k <= |rows|
      invariant OwnersRequested(ids, rows[..k])
      invariant Grouped(ids, rows[..k], buckets)
      invariant Union(buckets) == multiset(Contacts(rows[..k]))
    {
      var idx := FindIndex(ids, rows[k].owner);
      if idx < 0 {
        UnrequestedOwner(ids, rows, k);
        return Failure(OwnerNotRequested(rows[k].owner));
      }
      PushStep(ids, rows, k, buckets);
      buckets := buckets[idx := buckets[idx] + [rows[k].contact]];
      k := k + 1;
    }
    assert rows[..k] == rows;
    assert Grouped(ids, rows, buckets);
    return Success(buckets);
  }

  /** The number of times `p` lands in `owner`'s bucket is the number of `(owner, p)` rows. */
  lemma {:induction false} ContactsOfCount(rows: seq<ContactRow>, owner: Id, p: Person)
    ensures multiset(ContactsOf(rows, owner))[p] == multiset(rows)[ContactRow(owner, p)]
    decreases |rows|
  {
    if rows != [] {
      var n := |rows|;
      ContactsOfCount(rows[..n - 1], owner, p);
      assert rows == rows[..n - 1] + [rows[n - 1]];
    }
  }

  /** Bucket contents depend on the bag of rows only, not on the order the store returned them in. */
  lemma BucketsIgnoreRowOrder(rows1: seq<ContactRow>, rows2: seq<ContactRow>, owner: Id)
    requires multiset(rows1) == multiset(rows2)
    ensures multiset(ContactsOf(rows1, owner)) == multiset(ContactsOf(rows2, owner))
  {
    forall p: Person
      ensures multiset(ContactsOf(rows1, owner))[p] == multiset(ContactsOf(rows2, owner))[p]
    {
      ContactsOfCount(rows1, owner, p);
      ContactsOfCount(rows2, owner, p);
    }
  }
}

=== FILE: email_order.dfy ===
/**
 * The order `ORDER BY email ASC` lists the persons table in.
 *
 * Strings compare lexicographically by character code. The store does not
 * fix the relative order of rows with equal emails; the model breaks such
 * ties by the row's key, so that the listing is one definite sequence.
 */
module EmailOrder {
  import opened Persons

  /** Lexicographic order on strings, character by character. */
  predicate StrLe(a: string, b: string)
    decreases |a|
  {
    |a| == 0 || (|b| > 0 && (a[0] < b[0] || (a[0] == b[0] && StrLe(a[1..], b[1..]))))
  }

  lemma StrLeReflexive(a: string)
    ensures StrLe(a, a)
  {
  }

  lemma {:induction false} StrLeAntisymmetric(a: string, b: string)
    requires StrLe(a, b) && StrLe(b, a)
    ensures a == b
    decreases |a|
  {
    if |a| > 0 {
      StrLeAntisymmetric(a[1..], b[1..]);
      assert a == [a[0]] + a[1..] && b == [b[0]] + b[1..];
    }
  }

  lemma {:induction false} StrLeTransitive(a: string, b: string, c: string)
    requires StrLe(a, b) && StrLe(b, c)
    ensures StrLe(a, c)
    decreases |a|
  {
    if |a| > 0 && a[0] == b[0] && b[0] == c[0] {
      StrLeTransitive(a[1..], b[1..], c[1..]);
    }
  }

  lemma {:induction false} StrLeTotal(a: string, b: string)
    ensures StrLe(a, b) || StrLe(b, a)
    decreases |a|
  {
    if |a| > 0 && |b| > 0 && a[0] == b[0] {
      StrLeTotal(a[1..], b[1..]);
    }
  }

  /** Row `k` of `m` comes no later than row `j`: smaller email, or equal email and key no greater. */
  predicate RankLe(m: map<Id, Person>, k: Id, j: Id)
    requires k in m && j in m
  {
    (StrLe(m[k].email, m[j].email) && m[k].email != m[j].email)
    || (m[k].email == m[j].email && StrLe(k, j))
  }

  lemma RankLeTotal(m: map<Id, Person>, k: Id, j: Id)
    requires k in m && j in m
    ensures RankLe(m, k, j) || RankLe(m, j, k)
  {
    StrLeTotal(m[k].email, m[j].email);
    StrLeTotal(k, j);
  }

  lemma RankLeTransitive(m: map<Id, Person>, a: Id, b: Id, c: Id)
    requires a in m && b in m && c in m
    requires RankLe(m, a, b) && RankLe(m, b, c)
    ensures RankLe(m, a, c)
  {
    var ea, eb, ec := m[a].email, m[b].email, m[c].email;
    if ea == eb && eb == ec {
      StrLeTransitive(a, b, c);
    } else {
      StrLeReflexive(ea);
      StrLeReflexive(eb);
      StrLeTransitive(ea, eb, ec);
      if ea == ec {
        StrLeAntisymmetric(ea, eb);
      }
    }
  }

  lemma RankLeAntisymmetric(m: map<Id, Person>, k: Id, j: Id)
    requires k in m && j in m
    requires RankLe(m, k, j) && RankLe(m, j, k)
    ensures k == j
  {
    if m[k].email == m[j].email {
      StrLeAntisymmetric(k, j);
    } else {
      StrLeAntisymmetric(m[k].email, m[j].email);
    }
  }

  /** `k` comes first among `keys`. */
  predicate IsFirst(m: map<Id, Person>, keys: set<Id>, k: Id)
    requires keys <= m.Keys
  {
    k in keys && forall j :: j in keys ==> RankLe(m, k, j)
  }

  lemma {:induction false} FirstExists(m: map<Id, Person>, keys: set<Id>)
    requires keys <= m.Keys && keys != {}
    ensures exists k :: IsFirst(m, keys, k)
    decreases |keys|
  {
    var k0 :| k0 in keys;
    var rest := keys - {k0};
    if rest == {} {
      assert keys == {k0};
      StrLeReflexive(k0);
      assert IsFirst(m, keys, k0);
    } else {
      FirstExists(m, rest);
      var k1 :| IsFirst(m, rest, k1);
      RankLeTotal(m, k0, k1);
      if RankLe(m, k1, k0) {
        assert IsFirst(m, keys, k1);
      } else {
        forall j | j in keys
          ensures RankLe(m, k0, j)
        {
          if j == k0 {
            StrLeReflexive(k0);
          } else {
            RankLeTransitive(m, k0, k1, j);
          }
        }
        assert IsFirst(m, keys, k0);
      }
    }
  }

  lemma FirstUnique(m: map<Id, Person>, keys: set<Id>)
    requires keys <= m.Keys
    ensures forall k, j :: IsFirst(m, keys, k) && IsFirst(m, keys, j) ==> k == j
  {
    forall k, j | IsFirst(m, keys, k) && IsFirst(m, keys, j)
      ensures k == j
    {
      RankLeAntisymmetric(m, k, j);
    }
  }

  /** The key, among `keys`, of the row ORDER BY puts first. */
  function First(m: map<Id, Person>, keys: set<Id>): (k: Id)
    requires keys <= m.Keys && keys != {}
    ensures IsFirst(m, keys, k)
  {
    FirstExists(m, keys);
    FirstUnique(m, keys);
    var k :| IsFirst(m, keys, k);
    k
  }

  /** `keys` in listing order, each exactly once. */
  function SortKeys(m: map<Id, Person>, keys: set<Id>): (ks: seq<Id>)
    requires keys <= m.Keys
    ensures |ks| == |keys|
    ensures forall i :: 0 <= i < |ks| ==> ks[i] in keys
    ensures forall k :: k in keys ==> k in ks
    ensures forall i, j :: 0 <= i < j < |ks| ==> ks[i] != ks[j]
    ensures forall i, j :: 0 <= i < j < |ks| ==> RankLe(m, ks[i], ks[j])
    decreases |keys|
  {
    if keys == {} then []
    else
      var k := First(m, keys);
      var tail := SortKeys(m, keys - {k});
      [k] + tail
  }

  /** The keys of the table in listing order. */
  function SortedKeys(m: map<Id, Person>): (ks: seq<Id>)
    ensures |ks| == |m|
    ensures forall i :: 0 <= i < |ks| ==> ks[i] in m
    ensures forall k :: k in m ==> k in ks
    ensures forall i, j :: 0 <= i < j < |ks| ==> ks[i] != ks[j]
    ensures forall i, j :: 0 <= i < j < |ks| ==> RankLe(m, ks[i], ks[j])
  {
    SortKeys(m, m.Keys)
  }

  /** Emails appear in non-decreasing order. */
  predicate EmailsAscending(rows: seq<Person>) {
    forall i, j :: 0 <= i < j < |rows| ==> StrLe(rows[i].email, rows[j].email)
  }

  /** The rows of `m` under `ks`, in that order. */
  function RowsAt(m: map<Id, Person>, ks: seq<Id>): (rows: seq<Person>)
    requires forall i :: 0 <= i < |ks| ==> ks[i] in m
    ensures |rows| == |ks|
    ensures forall i :: 0 <= i < |ks| ==> rows[i] == m[ks[i]]
  {
    if ks == [] then [] else [m[ks[0]]] + RowsAt(m, ks[1..])
  }

  lemma RowsAtAscending(m: map<Id, Person>, ks: seq<Id>)
    requires forall i :: 0 <= i < |ks| ==> ks[i] in m
    requires forall i, j :: 0 <= i < j < |ks| ==> RankLe(m, ks[i], ks[j])
    ensures EmailsAscending(RowsAt(m, ks))
  {
    var rows := RowsAt(m, ks);
    forall i, j | 0 <= i < j < |rows|
      ensures StrLe(rows[i].email, rows[j].email)
    {
      assert RankLe(m, ks[i], ks[j]);
      StrLeReflexive(rows[i].email);
    }
  }

  /** The rows of `keys`, repeatedly taking the one ORDER BY puts first. */
  function RowsInOrder(m: map<Id, Person>, keys: set<Id>): (rows: seq<Person>)
    requires keys <= m.Keys
    ensures |rows| == |keys|
    decreases |keys|
  {
    if keys == {} then []
    else
      var k := First(m, keys);
      [m[k]] + RowsInOrder(m, keys - {k})
  }

  /**
   * `SELECT ... FROM persons ORDER BY email ASC`: every row of the table,
   * once, emails ascending. `RowsInOrder` makes the same `First` selection
   * as `SortKeys`; `ListingAt` proves the two agree position by position.
   */
  function Listing(m: map<Id, Person>): (rows: seq<Person>)
    ensures |rows| == |m|
  {
    RowsInOrder(m, m.Keys)
  }

  lemma {:induction false} RowsInOrderAt(m: map<Id, Person>, keys: set<Id>)
    requires keys <= m.Keys
    ensures RowsInOrder(m, keys) == RowsAt(m, SortKeys(m, keys))
    decreases |keys|
  {
    if keys != {} {
      var k := First(m, keys);
      var ks := SortKeys(m, keys);
      RowsInOrderAt(m, keys - {k});
      assert ks[1..] == SortKeys(m, keys - {k});
    }
  }

  /** Listing position `i` holds the row of the `i`-th key in listing order. */
  lemma ListingAt(m: map<Id, Person>)
    ensures Listing(m) == RowsAt(m, SortedKeys(m))
    ensures forall i :: 0 <= i < |m| ==> Listing(m)[i] == m[SortedKeys(m)[i]]
  {
    RowsInOrderAt(m, m.Keys);
  }

  /** The listing's emails are in non-decreasing order. */
  lemma ListingAscending(m: map<Id, Person>)
    ensures EmailsAscending(Listing(m))
  {
    ListingAt(m);
    RowsAtAscending(m, SortedKeys(m));
  }

}

=== FILE: instants.dfy ===
/**
 * Instants and their text form.
 *
 * A JavaScript `Date` is a whole number of milliseconds since the Unix epoch.
 * When a record is written to the cache, `JSON.stringify` turns each `Date`
 * into text, and `new Date(text)` turns it back. The model renders an instant
 * as canonical decimal text (no sign, no leading zeros) and parses it back;
 * the two are exact inverses.
 */
module Instants {
  import opened Wrappers

  /** Milliseconds since the Unix epoch. */
  type Instant = nat

  predicate IsDigit(c: char) {
    '0' <= c <= '9'
  }

  function DigitChar(d: nat): (c: char)
    requires d < 10
    ensures IsDigit(c)
  {
    (('0' as int) + d) as char
  }

  function DigitValue(c: char): (d: nat)
    requires IsDigit(c)
    ensures d < 10 && DigitChar(d) == c
  {
    (c as int) - ('0' as int)
  }

  /** Decimal text with no sign and no leading zero (except "0" itself). */
  predicate Canonical(s: string) {
    && |s| > 0
    && (forall i :: 0 <= i < |s| ==> IsDigit(s[i]))
    && (s[0] == '0' ==> |s| == 1)
  }

  /** The text an instant is stored as. */
  function Render(t: Instant): (s: string)
    ensures Canonical(s)
    ensures s == "0" <==> t == 0
    decreases t
  {
    if t < 10 then [DigitChar(t)]
    else
      var prefix := Render(t / 10);
      assert prefix != "0";
      prefix + [DigitChar(t % 10)]
  }

  /** The number a string of decimal digits denotes. */
  function Value(s: string): nat
    requires forall i :: 0 <= i < |s| ==> IsDigit(s[i])
  {
    if |s| == 0 then 0 else Value(s[..|s| - 1]) * 10 + DigitValue(s[|s| - 1])
  }

  /** Reads an instant back from its text; anything that is not canonical decimal text is refused. */
  function Parse(s: string): (r: Option<Instant>)
    ensures r.Some? <==> Canonical(s)
  {
    if Canonical(s) then Some(Value(s)) else None
  }

  lemma {:induction false} ValueOfRender(t: Instant)
    ensures Value(Render(t)) == t
    decreases t
  {
    if t >= 10 {
      var prefix := Render(t / 10);
      var s := prefix + [DigitChar(t % 10)];
      assert s[..|s| - 1] == prefix;
      ValueOfRender(t / 10);
    }
  }

  lemma {:induction false} ValuePositive(s: string)
    requires Canonical(s) && s[0] != '0'
    ensures Value(s) >= 1
    decreases |s|
  {
    if |s| > 1 {
      var prefix := s[..|s| - 1];
      assert prefix[0] == s[0];
      ValuePositive(prefix);
    }
  }

  lemma {:induction false} RenderOfValue(s: string)
    requires Canonical(s)
    ensures Render(Value(s)) == s
    decreases |s|
  {
    if |s| > 1 {
      var prefix := s[..|s| - 1];
      assert prefix[0] == s[0];
      assert Canonical(prefix);
      ValuePositive(prefix);
      RenderOfValue(prefix);
      var t := Value(s);
      assert t / 10 == Value(prefix) && t % 10 == DigitValue(s[|s| - 1]);
      assert s == prefix + [s[|s| - 1]];
    }
  }

  /** Parsing the rendered text of an instant gives the instant back. */
  lemma ParseRender(t: Instant)
    ensures Parse(Render(t)) == Some(t)
  {
    ValueOfRender(t);
  }

  /** Parse accepts exactly the rendered texts: each text names one instant and each instant has one text. */
  lemma ParseIsRenderInverse(s: string, t: Instant)
    ensures Parse(s) == Some(t) <==> Render(t) == s
  {
    if Parse(s) == Some(t) {
      RenderOfValue(s);
    }
    if Render(t) == s {
      ParseRender(t);
    }
  }
}

=== FILE: loaders.dfy ===
/**
 * The batch loader for `Person.contacts`: the contact requests collected
 * during one traversal are answered with a single `findContacts` call, and
 * answer `i` goes back to request `i`.
 */
module Loaders {
  import opened Persons
  import opened ContactRows
  import opened Repository

  /** One collected request: the parent person whose contacts are asked for. */
  datatype LoaderQuery = LoaderQuery(obj: Person)

  /** `queries.map(({ obj }) => obj.id)`: the ids of the batch, in request order. */
  function BatchIds(queries: seq<LoaderQuery>): (ids: seq<Id>)
    ensures |ids| == |queries|
    ensures forall i :: 0 <= i < |queries| ==> ids[i] == queries[i].obj.id
  {
    if queries == [] then [] else [queries[0].obj.id] + BatchIds(queries[1..])
  }

  /**
   * `loaders.Person.contacts`: one answer per request, in request order. The
   * first request for a person gets that person's contacts; a later request
   * for the same person in the same batch gets an empty list.
   */
  method PersonContacts(s: State, queries: seq<LoaderQuery>) returns (answers: seq<seq<Person>>)
    ensures |answers| == |queries|
    ensures Union(answers) == multiset(Contacts(JoinRows(s.db, BatchIds(queries))))
    ensures forall i :: 0 <= i < |queries| && !FirstOccurrence(BatchIds(queries), i) ==> answers[i] == []
    ensures Consistent(s.db) ==>
      forall i :: 0 <= i < |queries| && FirstOccurrence(BatchIds(queries), i) ==>
        multiset(answers[i]) == multiset(DirectContacts(s.db, queries[i].obj.id))
  {
    answers := FindContacts(s, BatchIds(queries));
  }

  /** A request is a repeat when an earlier request in the batch names the same person. */
  lemma RepeatIsNotFirst(queries: seq<LoaderQuery>, i: nat, j: nat)
    requires j < i < |queries| && queries[j].obj.id == queries[i].obj.id
    ensures !FirstOccurrence(BatchIds(queries), i)
  {
    var ids := BatchIds(queries);
    assert ids[j] == ids[i];
  }

  /** The first request naming a person is the one that is answered. */
  lemma FirstRequestIsFirst(queries: seq<LoaderQuery>, i: nat)
    requires i < |queries|
    requires forall j :: 0 <= j < i ==> queries[j].obj.id != queries[i].obj.id
    ensures FirstOccurrence(BatchIds(queries), i)
  {
    var ids := BatchIds(queries);
    assert forall j :: 0 <= j < i ==> ids[j] != ids[i];
  }
}

=== FILE: persons.dfy ===
/**
 * The Person record and the partial-update merge.
 *
 * A row of the `persons` table has nine columns. `phone`, `gender` and
 * `birthdate` may be NULL; the others are always present.
 */
module Persons {
  import opened Wrappers
  import opened Instants

  /** An opaque identifier in UUID text form. */
  type Id = string

  datatype Gender = Male | Female

  datatype Person = Person(
    id: Id,
    name: string,
    surname: string,
    email: string,
    phone: Option<string>,
    gender: Option<Gender>,
    birthdate: Option<string>,
    modified: Instant,
    created: Instant
  )

  /**
   * The input of an update. `id` names the record; every other field is
   * either supplied (`Some`) or absent (`None`). For a nullable column a
   * supplied value may itself be NULL, hence the nested Option.
   */
  datatype Patch = Patch(
    id: Id,
    name: Option<string>,
    surname: Option<string>,
    email: Option<string>,
    phone: Option<Option<string>>,
    gender: Option<Option<Gender>>,
    birthdate: Option<Option<string>>
  )

  /** A patch that supplies no field. */
  function EmptyPatch(id: Id): Patch {
    Patch(id, None, None, None, None, None, None)
  }

  /** The supplied value if there is one, else the base value (one field of an object spread). */
  function Override<T>(base: T, supplied: Option<T>): T {
    match supplied
    case Some(v) => v
    case None => base
  }

  /**
   * `{ ...base, ...patch, modified: now }`: the patch's `id` and every
   * supplied field win over the base record, every other field keeps the
   * base value, and `modified` is stamped with the current instant.
   */
  function Merge(base: Person, patch: Patch, now: Instant): (r: Person)
    ensures r.id == patch.id && r.created == base.created && r.modified == now
    ensures patch.name.Some? ==> r.name == patch.name.value
    ensures patch.name.None? ==> r.name == base.name
    ensures patch.surname.Some? ==> r.surname == patch.surname.value
    ensures patch.surname.None? ==> r.surname == base.surname
    ensures patch.email.Some? ==> r.email == patch.email.value
    ensures patch.email.None? ==> r.email == base.email
    ensures patch.phone.Some? ==> r.phone == patch.phone.value
    ensures patch.phone.None? ==> r.phone == base.phone
    ensures patch.gender.Some? ==> r.gender == patch.gender.value
    ensures patch.gender.None? ==> r.gender == base.gender
    ensures patch.birthdate.Some? ==> r.birthdate == patch.birthdate.value
    ensures patch.birthdate.None? ==> r.birthdate == base.birthdate
  {
    base.(
      id := patch.id,
      name := Override(base.name, patch.name),
      surname := Override(base.surname, patch.surname),
      email := Override(base.email, patch.email),
      phone := Override(base.phone, patch.phone),
      gender := Override(base.gender, patch.gender),
      birthdate := Override(base.birthdate, patch.birthdate),
      modified := now
    )
  }

  /** Two successive patches, the later one winning field by field. */
  function Compose(first: Patch, second: Patch): Patch {
    Patch(
      second.id,
      if second.name.Some? then second.name else first.name,
      if second.surname.Some? then second.surname else first.surname,
      if second.email.Some? then second.email else first.email,
      if second.phone.Some? then second.phone else first.phone,
      if second.gender.Some? then second.gender else first.gender,
      if second.birthdate.Some? then second.birthdate else first.birthdate
    )
  }

  /** Merging two patches one after the other is merging their composition once. */
  lemma MergeCompose(base: Person, first: Patch, second: Patch, t1: Instant, t2: Instant)
    ensures Merge(Merge(base, first, t1), second, t2) == Merge(base, Compose(first, second), t2)
  {
  }

  /** Re-applying the same patch at the same instant changes nothing. */
  lemma MergeIdempotent(base: Person, patch: Patch, now: Instant)
    ensures Merge(Merge(base, patch, now), patch, now) == Merge(base, patch, now)
  {
  }

  /** A patch that supplies nothing only moves `modified` (and names the record by its own id). */
  lemma MergeEmptyPatch(base: Person, id: Id, now: Instant)
    ensures Merge(base, EmptyPatch(id), now) == base.(id := id, modified := now)
  {
  }

  /** The length limits the GraphQL schema puts on a person. */
  predicate ValidPerson(p: Person) {
    && 1 <= |p.name| <= 256
    && 1 <= |p.surname| <= 256
    && |p.email| <= 320
    && (p.phone.Some? ==> |p.phone.value| <= 32)
  }

  /** The same limits on the supplied fields of an update. */
  predicate ValidPatch(patch: Patch) {
    && (patch.name.Some? ==> 1 <= |patch.name.value| <= 256)
    && (patch.surname.Some? ==> 1 <= |patch.surname.value| <= 256)
    && (patch.email.Some? ==> |patch.email.value| <= 320)
    && (patch.phone.Some? && patch.phone.value.Some? ==> |patch.phone.value.value| <= 32)
  }

  /** A valid patch over a valid record yields a valid record. */
  lemma MergeKeepsValid(base: Person, patch: Patch, now: Instant)
    requires ValidPerson(base) && ValidPatch(patch)
    ensures ValidPerson(Merge(base, patch, now))
  {
  }
}

=== FILE: repository.dfy ===
/**
 * The repository: the relational store (a persons table and a directed
 * contacts relation), the read cache in front of it, and every operation on
 * them. Each operation is a function from the state to a reply and the next
 * state; `now` is the instant the operation runs at.
 *
 * Every SQL statement is modelled as one step on maps and sets.
 */
module Repository {
  import opened Wrappers
  import opened Instants
  import opened Persons
  import Cache
  import opened EmailOrder
  import opened ContactRows

  /** The failures the relational store reports. */
  datatype DbError =
    | UniqueViolation      // SQLSTATE 23505: a row with this primary key exists
    | ForeignKeyViolation  // SQLSTATE 23503: a referenced row does not exist
    | NegativeOffset       // "OFFSET must not be negative"
    | NegativeLimit        // "LIMIT must not be negative"
    | StoreFailure         // anything else: lost connection, timeout, ...

  /** The persons table, keyed by id, and the contacts table as a set of (person_id, contact_id). */
  datatype Db = Db(persons: map<Id, Person>, contacts: set<(Id, Id)>)

  datatype State = State(db: Db, cache: Cache.Store)

  /** What an operation returns, and the state after it. */
  datatype Reply<T> = Reply(value: T, state: State)

  const DefaultLimit: int := 10
  const DefaultOffset: int := 0

  /** Each row is stored under its own id. */
  predicate Consistent(db: Db) {
    forall k :: k in db.persons ==> db.persons[k].id == k
  }

  /** Every record the cache would serve at `now` is the record the store holds. */
  ghost predicate Coherent(s: State, now: Instant) {
    forall id :: Cache.Get(s.cache, now, id).Some? ==>
      id in s.db.persons && Cache.Get(s.cache, now, id).value == s.db.persons[id]
  }

  // ---------------------------------------------------------------------------
  // Persons

  /** `insertPerson`: a single-row INSERT; a second row with the same id is refused. The cache is not touched. */
  function InsertPerson(s: State, draft: Person): (r: Reply<Result<Person, DbError>>)
    ensures draft.id in s.db.persons ==> r == Reply(Failure(UniqueViolation), s)
    ensures draft.id !in s.db.persons ==>
      && r.value == Success(draft)
      && r.state.db.persons.Keys == s.db.persons.Keys + {draft.id}
      && r.state.db.persons[draft.id] == draft
      && (forall k :: k in s.db.persons ==> r.state.db.persons[k] == s.db.persons[k])
      && r.state.db.contacts == s.db.contacts
      && r.state.cache == s.cache
  {
    if draft.id in s.db.persons then Reply(Failure(UniqueViolation), s)
    else Reply(Success(draft), s.(db := s.db.(persons := s.db.persons[draft.id := draft])))
  }

  /** `getTotalPersonCount`: `SELECT COUNT(*)`, the number of rows the listing runs through. */
  function GetTotalPersonCount(s: State): (n: nat)
    ensures n == |Listing(s.db.persons)|
  {
    |s.db.persons|
  }

  /**
   * `findPersonById`, cache-aside: a live cache entry is returned without
   * reading the store; otherwise the store row is returned and cached; an
   * unknown id is not cached.
   */
  function FindPersonById(s: State, now: Instant, id: Id): (r: Reply<Option<Person>>)
    ensures r.state.db == s.db
    ensures Cache.Get(s.cache, now, id).Some? ==> r == Reply(Cache.Get(s.cache, now, id), s)
    ensures Cache.Get(s.cache, now, id).None? && id in s.db.persons ==>
      r.value == Some(s.db.persons[id]) && Cache.Get(r.state.cache, now, s.db.persons[id].id) == r.value
    ensures Cache.Get(s.cache, now, id).None? && id !in s.db.persons ==> r == Reply(None, s)
  {
    match Cache.Get(s.cache, now, id)
    case Some(cached) => Reply(Some(cached), s)
    case None =>
      if id in s.db.persons then
        var row := s.db.persons[id];
        Cache.GetAfterSet(s.cache, now, now, row);
        Reply(Some(row), s.(cache := Cache.Set(s.cache, now, row)))
      else Reply(None, s)
  }

  /** At most `limit` of `all`, starting at position `offset`: what LIMIT/OFFSET keep. */
  function Window(all: seq<Person>, limit: nat, offset: nat): (rows: seq<Person>)
    ensures |rows| == if offset >= |all| then 0 else Min(limit, |all| - offset)
    ensures offset < |all| ==> rows == all[offset..offset + |rows|]
  {
    if offset >= |all| then [] else all[offset..Min(offset + limit, |all|)]
  }

  lemma WindowAscending(rows: seq<Person>, limit: nat, offset: nat)
    requires EmailsAscending(rows)
    ensures EmailsAscending(Window(rows, limit, offset))
  {
    var w := Window(rows, limit, offset);
    forall i, j | 0 <= i < j < |w|
      ensures StrLe(w[i].email, w[j].email)
    {
      assert w[i] == rows[offset + i] && w[j] == rows[offset + j];
    }
  }

  /** The rows of the listing from `offset` on, at most `limit` of them. */
  function Page(db: Db, limit: nat, offset: nat): (rows: seq<Person>)
    ensures |rows| == if offset >= |db.persons| then 0 else Min(limit, |db.persons| - offset)
    ensures offset < |db.persons| ==> rows == Listing(db.persons)[offset..offset + |rows|]
  {
    Window(Listing(db.persons), limit, offset)
  }

  /** Every page lists its emails in non-decreasing order. */
  lemma PageAscending(db: Db, limit: nat, offset: nat)
    ensures EmailsAscending(Page(db, limit, offset))
  {
    ListingAscending(db.persons);
    WindowAscending(Listing(db.persons), limit, offset);
  }

  function Min(a: int, b: int): int {
    if a <= b then a else b
  }

  /**
   * `findPersonsPaginated(limit = 10, offset = 0)`: `ORDER BY email ASC
   * LIMIT limit OFFSET offset`. The store refuses a negative offset or limit.
   */
  function FindPersonsPaginated(s: State, limit: Option<int>, offset: Option<int>): (r: Result<seq<Person>, DbError>)
    ensures var lim, off := Override(DefaultLimit, limit), Override(DefaultOffset, offset);
      && (r.Success? <==> 0 <= lim && 0 <= off)
      && (off < 0 ==> r == Failure(NegativeOffset))
      && (0 <= off && lim < 0 ==> r == Failure(NegativeLimit))
      && (r.Success? ==> |r.value| == Min(lim, if off < |s.db.persons| then |s.db.persons| - off else 0))
      && (r.Success? ==> forall i :: 0 <= i < |r.value| ==> r.value[i] == Listing(s.db.persons)[off + i])
      && (r.Success? ==> EmailsAscending(r.value))
  {
    var lim, off := Override(DefaultLimit, limit), Override(DefaultOffset, offset);
    if off < 0 then Failure(NegativeOffset)
    else if lim < 0 then Failure(NegativeLimit)
    else
      PageAscending(s.db, lim, off);
      Success(Page(s.db, lim, off))
  }

  /**
   * What the store does with a deleted person's edges. The contacts table
   * references `persons` at both ends; its ON DELETE rule is not part of
   * this model, so it is a parameter.
   */
  datatype DeleteRule =
    | Cascade   // ON DELETE CASCADE: the person's edges are deleted with it
    | Restrict  // NO ACTION / RESTRICT: a DELETE that would orphan an edge fails with 23503

  /** Whether edge `e` has `id` at either end. */
  predicate Touches(e: (Id, Id), id: Id) {
    e.0 == id || e.1 == id
  }

  /** The contacts table's foreign keys: both ends of every edge are stored persons. */
  predicate EdgesResolve(db: Db) {
    forall e :: e in db.contacts ==> e.0 in db.persons && e.1 in db.persons
  }

  /** Under `Restrict`, deleting a stored person that an edge still touches is refused. */
  predicate DeleteRefused(db: Db, id: Id, rule: DeleteRule) {
    rule == Restrict && id in db.persons && exists e :: e in db.contacts && Touches(e, id)
  }

  /**
   * `removePersonById`: DELETE ... RETURNING gives the row as it was, or
   * nothing, and then the cache entry is removed. A DELETE the foreign keys
   * refuse throws before the cache is touched, so nothing changes.
   */
  function RemovePersonById(s: State, id: Id, rule: DeleteRule): (r: Reply<Result<Option<Person>, DbError>>)
    ensures DeleteRefused(s.db, id, rule) ==> r == Reply(Failure(ForeignKeyViolation), s)
    ensures !DeleteRefused(s.db, id, rule) ==>
      && r.value == Success(if id in s.db.persons then Some(s.db.persons[id]) else None)
      && r.state.db.persons.Keys == s.db.persons.Keys - {id}
      && (forall k :: k in r.state.db.persons ==> r.state.db.persons[k] == s.db.persons[k])
      && (forall e :: e in r.state.db.contacts <==> e in s.db.contacts && !(id in s.db.persons && Touches(e, id)))
      && Cache.IdToKey(id) !in r.state.cache
  {
    if DeleteRefused(s.db, id, rule) then Reply(Failure(ForeignKeyViolation), s)
    else if id in s.db.persons then
      var edges := set e | e in s.db.contacts && !Touches(e, id);
      Reply(Success(Some(s.db.persons[id])), State(Db(s.db.persons - {id}, edges), Cache.Del(s.cache, id)))
    else Reply(Success(None), s.(cache := Cache.Del(s.cache, id)))
  }

  /** `UPDATE persons SET name, surname, email, phone, gender, birthdate, modified ... RETURNING`: id and created stay. */
  function Written(stored: Person, merged: Person): Person {
    stored.(
      name := merged.name,
      surname := merged.surname,
      email := merged.email,
      phone := merged.phone,
      gender := merged.gender,
      birthdate := merged.birthdate,
      modified := merged.modified
    )
  }

  /**
   * `updatePerson`: read the record through `findPersonById` (so a cached copy
   * may be the base), merge the patch over it with `modified := now`, write
   * the merged columns, and on success drop the cache entry.
   */
  function UpdatePerson(s: State, now: Instant, patch: Patch): (r: Reply<Option<Person>>)
    ensures patch.id !in s.db.persons ==> r == Reply(None, s)
    ensures patch.id in s.db.persons ==>
      var stored := s.db.persons[patch.id];
      var cached := Cache.Get(s.cache, now, patch.id);
      var base := if cached.Some? then cached.value else stored;
      && r.value == Some(Merge(base, patch, now).(id := stored.id, created := stored.created))
      && r.state.db.persons == s.db.persons[patch.id := r.value.value]
      && r.state.db.contacts == s.db.contacts
      && Cache.IdToKey(patch.id) !in r.state.cache
  {
    var found := FindPersonById(s, now, patch.id);
    match found.value
    case None => found
    case Some(base) =>
      var s1 := found.state;
      if patch.id in s1.db.persons then
        var row := Written(s1.db.persons[patch.id], Merge(base, patch, now));
        Reply(Some(row), State(s1.db.(persons := s1.db.persons[patch.id := row]), Cache.Del(s1.cache, patch.id)))
      else Reply(None, s1)
  }

  // ---------------------------------------------------------------------------
  // Contacts

  /**
   * `insertContact`: INSERT the directed edge. A missing endpoint is a
   * foreign-key violation; it, and any other failure `fault` stands for, is
   * caught and turned into a falsy reply with nothing written.
   */
  function InsertContact(s: State, personId: Id, contactId: Id, fault: Option<DbError>): (r: Reply<bool>)
    ensures r.value <==> personId in s.db.persons && contactId in s.db.persons && fault.None?
    ensures r.value ==> r.state == s.(db := s.db.(contacts := s.db.contacts + {(personId, contactId)}))
    ensures !r.value ==> r.state == s
  {
    var outcome: Result<(Id, Id), DbError> :=
      if personId !in s.db.persons || contactId !in s.db.persons then Failure(ForeignKeyViolation)
      else if fault.Some? then Failure(fault.value)
      else Success((personId, contactId));
    match outcome
    case Success(edge) => Reply(true, s.(db := s.db.(contacts := s.db.contacts + {edge})))
    case Failure(_) => Reply(false, s)
  }

  /** `removeContact`: DELETE the directed edge; true exactly when a row went away. */
  function RemoveContact(s: State, personId: Id, contactId: Id): (r: Reply<bool>)
    ensures r.value <==> (personId, contactId) in s.db.contacts
    ensures r.state.db.contacts == s.db.contacts - {(personId, contactId)}
    ensures r.state.db.persons == s.db.persons && r.state.cache == s.cache
  {
    var edge := (personId, contactId);
    Reply(edge in s.db.contacts, s.(db := s.db.(contacts := s.db.contacts - {edge})))
  }

  /** The people `owner` has a direct outgoing edge to. */
  function DirectContacts(db: Db, owner: Id): set<Person> {
    set e | e in db.contacts && e.0 == owner && e.1 in db.persons :: db.persons[e.1]
  }

  /** Each id once. */
  function Distinct(ids: seq<Id>): (r: seq<Id>)
    ensures forall x :: x in r <==> x in ids
    ensures forall i, j :: 0 <= i < j < |r| ==> r[i] != r[j]
  {
    if ids == [] then []
    else
      var rest := Distinct(ids[1..]);
      if ids[0] in ids[1..] then rest else [ids[0]] + rest
  }

  /** The join rows for one owner, walking the table in `table` order. */
  function RowsOf(db: Db, owner: Id, table: seq<Person>): (rows: seq<ContactRow>)
    ensures forall k :: 0 <= k < |rows| ==> rows[k].owner == owner
  {
    if table == [] then []
    else
      (if (owner, table[0].id) in db.contacts then [ContactRow(owner, table[0])] else [])
      + RowsOf(db, owner, table[1..])
  }

  function RowsFor(db: Db, owners: seq<Id>, table: seq<Person>): (rows: seq<ContactRow>)
    ensures forall k :: 0 <= k < |rows| ==> rows[k].owner in owners
  {
    if owners == [] then []
    else RowsOf(db, owners[0], table) + RowsFor(db, owners[1..], table)
  }

  /**
   * `contacts JOIN persons ON contacts.contact_id = persons.id WHERE
   * contacts.person_id = ANY(ids)`, in one order the store may return it in.
   */
  function JoinRows(db: Db, ids: seq<Id>): (rows: seq<ContactRow>)
    ensures OwnersRequested(ids, rows)
  {
    RowsFor(db, Distinct(ids), Listing(db.persons))
  }

  /**
   * `findContacts(ids)`: one query for all ids, then grouping the rows back
   * onto the positions of `ids`.
   */
  method FindContacts(s: State, ids: seq<Id>) returns (buckets: seq<seq<Person>>)
    ensures |buckets| == |ids|
    ensures Union(buckets) == multiset(Contacts(JoinRows(s.db, ids)))
    ensures forall i :: 0 <= i < |ids| && !FirstOccurrence(ids, i) ==> buckets[i] == []
    ensures Consistent(s.db) ==>
      forall i :: 0 <= i < |ids| && FirstOccurrence(ids, i) ==>
        multiset(buckets[i]) == multiset(DirectContacts(s.db, ids[i]))
  {
    var rows := JoinRows(s.db, ids);
    var grouped := GroupByOwner(ids, rows);
    assert grouped.Success?;
    buckets := grouped.value;
    if Consistent(s.db) {
      forall i | 0 <= i < |ids| && FirstOccurrence(ids, i)
        ensures multiset(buckets[i]) == multiset(DirectContacts(s.db, ids[i]))
      {
        BucketIsDirectContacts(s.db, ids, ids[i]);
      }
    }
  }

  // ---------------------------------------------------------------------------
  // Counting the join

  lemma {:induction false} RowsOfCount(db: Db, owner: Id, table: seq<Person>, y: Id, p: Person)
    ensures multiset(RowsOf(db, owner, table))[ContactRow(y, p)]
         == if y == owner && (owner, p.id) in db.contacts then multiset(table)[p] else 0
    decreases |table|
  {
    if table != [] {
      RowsOfCount(db, owner, table[1..], y, p);
      assert table == [table[0]] + table[1..];
    }
  }

  lemma {:induction false} RowsForCount(db: Db, owners: seq<Id>, table: seq<Person>, y: Id, p: Person)
    requires forall i, j :: 0 <= i < j < |owners| ==> owners[i] != owners[j]
    ensures multiset(RowsFor(db, owners, table))[ContactRow(y, p)]
         == if y in owners && (y, p.id) in db.contacts then multiset(table)[p] else 0
    decreases |owners|
  {
    if owners != [] {
      RowsOfCount(db, owners[0], table, y, p);
      RowsForCount(db, owners[1..], table, y, p);
    }
  }

  lemma {:induction false} DistinctCount<T>(s: seq<T>, x: T)
    requires forall i, j :: 0 <= i < j < |s| ==> s[i] != s[j]
    ensures multiset(s)[x] == if x in s then 1 else 0
    decreases |s|
  {
    if s != [] {
      DistinctCount(s[1..], x);
      assert s == [s[0]] + s[1..];
    }
  }

  /** In a consistent store no row appears twice in the listing. */
  lemma ListingDistinct(db: Db)
    requires Consistent(db)
    ensures forall i, j :: 0 <= i < j < |Listing(db.persons)| ==> Listing(db.persons)[i] != Listing(db.persons)[j]
  {
    var m := db.persons;
    var ks := SortedKeys(m);
    var rows := Listing(m);
    ListingAt(m);
    forall i, j | 0 <= i < j < |rows|
      ensures rows[i] != rows[j]
    {
      assert rows[i] == m[ks[i]] && rows[j] == m[ks[j]];
      assert ks[i] != ks[j];
    }
  }

  /** In a consistent store the listing holds exactly the table's rows. */
  lemma ListingMember(db: Db, p: Person)
    requires Consistent(db)
    ensures p in Listing(db.persons) <==> p.id in db.persons && db.persons[p.id] == p
  {
    var m := db.persons;
    var ks := SortedKeys(m);
    var rows := Listing(m);
    ListingAt(m);
    if p.id in m && m[p.id] == p {
      var i :| 0 <= i < |ks| && ks[i] == p.id;
      assert rows[i] == p;
    }
    if p in rows {
      var i :| 0 <= i < |rows| && rows[i] == p;
      assert rows[i] == m[ks[i]];
    }
  }

  /** In a consistent store the listing holds every row exactly once. */
  lemma ListingCount(db: Db, p: Person)
    requires Consistent(db)
    ensures multiset(Listing(db.persons))[p] == if p.id in db.persons && db.persons[p.id] == p then 1 else 0
  {
    ListingDistinct(db);
    DistinctCount(Listing(db.persons), p);
    ListingMember(db, p);
  }

  lemma DirectContactsMembers(db: Db, owner: Id, p: Person)
    requires Consistent(db)
    ensures p in DirectContacts(db, owner) <==>
      (owner, p.id) in db.contacts && p.id in db.persons && db.persons[p.id] == p
  {
    if (owner, p.id) in db.contacts && p.id in db.persons && db.persons[p.id] == p {
      var e := (owner, p.id);
      assert db.persons[e.1] in DirectContacts(db, owner);
    }
  }

  /** The bucket of a requested owner holds each of its direct contacts exactly once. */
  lemma BucketIsDirectContacts(db: Db, ids: seq<Id>, owner: Id)
    requires Consistent(db) && owner in ids
    ensures multiset(ContactsOf(JoinRows(db, ids), owner)) == multiset(DirectContacts(db, owner))
  {
    var rows := JoinRows(db, ids);
    forall p: Person
      ensures multiset(ContactsOf(rows, owner))[p] == multiset(DirectContacts(db, owner))[p]
    {
      ContactsOfCount(rows, owner, p);
      RowsForCount(db, Distinct(ids), Listing(db.persons), owner, p);
      ListingCount(db, p);
      DirectContactsMembers(db, owner, p);
    }
  }
}

=== FILE: repository_properties.dfy ===
/**
 * Properties that relate several repository operations: the cache never
 * serves anything but the store's row, writes invalidate, paging covers the
 * table, and edge insertion and removal undo each other.
 */
module RepositoryProperties {
  import opened Wrappers
  import opened Instants
  import opened Persons
  import Cache
  import opened EmailOrder
  import opened Repository

  // ---------------------------------------------------------------------------
  // The read path

  /** On a cache hit the store is not read: the reply is the same whatever the store holds. */
  lemma CacheHitIgnoresStore(db1: Db, db2: Db, cache: Cache.Store, now: Instant, id: Id)
    requires Cache.Get(cache, now, id).Some?
    ensures FindPersonById(State(db1, cache), now, id).value == FindPersonById(State(db2, cache), now, id).value
    ensures FindPersonById(State(db1, cache), now, id).state.cache == cache
    ensures FindPersonById(State(db2, cache), now, id).state.cache == cache
  {
  }

  /** A lookup that went to the store is served from the cache for the next 60 seconds. */
  lemma RepeatLookupHitsCache(s: State, now: Instant, later: Instant, id: Id)
    requires Consistent(s.db) && id in s.db.persons && Cache.Get(s.cache, now, id).None?
    requires now <= later <= now + Cache.ExpirySeconds * Cache.MillisPerSecond
    ensures var first := FindPersonById(s, now, id);
      && Cache.Get(first.state.cache, later, id) == first.value
      && FindPersonById(first.state, later, id) == first
  {
    Cache.GetAfterSet(s.cache, now, later, s.db.persons[id]);
  }

  /** Coherence survives the passage of time: entries only expire. */
  lemma CoherentLater(s: State, now: Instant, later: Instant)
    requires Coherent(s, now) && now <= later
    ensures Coherent(s, later)
  {
    forall id | Cache.Get(s.cache, later, id).Some?
      ensures id in s.db.persons && Cache.Get(s.cache, later, id).value == s.db.persons[id]
    {
      Cache.GetLaterImpliesEarlier(s.cache, now, later, id);
    }
  }

  /** With a coherent cache, a lookup returns exactly what the store holds. */
  lemma CoherentLookupIsStoreLookup(s: State, now: Instant, id: Id)
    requires Coherent(s, now)
    ensures FindPersonById(s, now, id).value == if id in s.db.persons then Some(s.db.persons[id]) else None
  {
  }

  /** A lookup keeps the cache coherent: what it caches is the store's row. */
  lemma FindPersonByIdKeepsCoherent(s: State, now: Instant, id: Id)
    requires Consistent(s.db) && Coherent(s, now)
    ensures Coherent(FindPersonById(s, now, id).state, now)
  {
    var r := FindPersonById(s, now, id);
    if Cache.Get(s.cache, now, id).None? && id in s.db.persons {
      var row := s.db.persons[id];
      forall other | Cache.Get(r.state.cache, now, other).Some?
        ensures other in s.db.persons && Cache.Get(r.state.cache, now, other).value == s.db.persons[other]
      {
        if other != id {
          Cache.SetLeavesOtherIds(s.cache, now, now, row, other);
        }
      }
    }
  }

  /**
   * A lookup touches at most one cache entry: the one `cache.set` writes for
   * the stored row. Every other id reads the same afterwards, at any clock.
   */
  lemma FindLeavesOtherIds(s: State, now: Instant, id: Id, t: Instant, other: Id)
    requires id in s.db.persons ==> other != s.db.persons[id].id
    ensures Cache.Get(FindPersonById(s, now, id).state.cache, t, other) == Cache.Get(s.cache, t, other)
  {
    if Cache.Get(s.cache, now, id).None? && id in s.db.persons {
      Cache.SetLeavesOtherIds(s.cache, now, t, s.db.persons[id], other);
    }
  }

  // ---------------------------------------------------------------------------
  // Writes

  lemma InsertPersonKeepsInvariants(s: State, now: Instant, draft: Person)
    requires Consistent(s.db) && Coherent(s, now)
    ensures Consistent(InsertPerson(s, draft).state.db)
    ensures Coherent(InsertPerson(s, draft).state, now)
  {
  }

  /**
   * After a delete that goes through, the id is found neither in the store
   * nor in the cache; a refused delete leaves the state, cache entry
   * included, as it was. Either way no other cached id changes.
   */
  lemma RemoveInvalidates(s: State, id: Id, rule: DeleteRule, now: Instant, other: Id)
    requires other != id
    ensures RemovePersonById(s, id, rule).value.Success? ==>
      FindPersonById(RemovePersonById(s, id, rule).state, now, id).value == None
    ensures RemovePersonById(s, id, rule).value.Failure? ==> RemovePersonById(s, id, rule).state == s
    ensures Cache.Get(RemovePersonById(s, id, rule).state.cache, now, other) == Cache.Get(s.cache, now, other)
  {
    Cache.GetAfterDel(s.cache, now, id);
    Cache.DelLeavesOtherIds(s.cache, now, id, other);
  }

  lemma RemovePersonKeepsInvariants(s: State, now: Instant, id: Id, rule: DeleteRule)
    requires Consistent(s.db) && Coherent(s, now)
    ensures Consistent(RemovePersonById(s, id, rule).state.db)
    ensures Coherent(RemovePersonById(s, id, rule).state, now)
  {
    var r := RemovePersonById(s, id, rule);
    if !DeleteRefused(s.db, id, rule) {
      forall other | Cache.Get(r.state.cache, now, other).Some?
        ensures other in r.state.db.persons && Cache.Get(r.state.cache, now, other).value == r.state.db.persons[other]
      {
        Cache.GetAfterDel(s.cache, now, id);
        Cache.DelLeavesOtherIds(s.cache, now, id, other);
      }
    }
  }

  /**
   * Under either delete rule the foreign keys keep holding: a cascade takes
   * the person's edges with it and a restricted delete is refused. No other
   * write leaves an edge pointing at a missing person either.
   */
  lemma WritesKeepEdgesResolved(s: State, now: Instant, draft: Person, id: Id, rule: DeleteRule,
                                patch: Patch, p: Id, c: Id, fault: Option<DbError>)
    requires EdgesResolve(s.db)
    ensures EdgesResolve(InsertPerson(s, draft).state.db)
    ensures EdgesResolve(RemovePersonById(s, id, rule).state.db)
    ensures EdgesResolve(UpdatePerson(s, now, patch).state.db)
    ensures EdgesResolve(InsertContact(s, p, c, fault).state.db)
    ensures EdgesResolve(RemoveContact(s, p, c).state.db)
  {
    var r := RemovePersonById(s, id, rule);
    if !DeleteRefused(s.db, id, rule) {
      forall e | e in r.state.db.contacts
        ensures e.0 in r.state.db.persons && e.1 in r.state.db.persons
      {
        assert e in s.db.contacts;
        assert !(id in s.db.persons && Touches(e, id));
        if id in s.db.persons && rule == Restrict {
          assert !exists e' :: e' in s.db.contacts && Touches(e', id);
        }
      }
    }
  }

  /** Right after a successful update, a lookup returns the written row, never a pre-update cached copy. */
  lemma UpdateThenLookupSeesWrite(s: State, now: Instant, patch: Patch, later: Instant)
    requires UpdatePerson(s, now, patch).value.Some?
    ensures FindPersonById(UpdatePerson(s, now, patch).state, later, patch.id).value == UpdatePerson(s, now, patch).value
  {
  }

  /** With a coherent cache, an update writes the patch merged over the stored row. */
  lemma UpdateWithCoherentCache(s: State, now: Instant, patch: Patch)
    requires Coherent(s, now) && patch.id in s.db.persons
    ensures UpdatePerson(s, now, patch).value == Some(Merge(s.db.persons[patch.id], patch, now).(id := s.db.persons[patch.id].id))
    ensures Consistent(s.db) ==> UpdatePerson(s, now, patch).value == Some(Merge(s.db.persons[patch.id], patch, now))
  {
  }

  /** A cached copy is the base of the merge: an unsupplied field keeps the cached value, even if the store differs. */
  lemma UpdateMergesOverCachedCopy(s: State, now: Instant, patch: Patch, cached: Person)
    requires patch.id in s.db.persons && Cache.Get(s.cache, now, patch.id) == Some(cached)
    requires patch.name.None?
    ensures UpdatePerson(s, now, patch).value.value.name == cached.name
  {
  }

  lemma UpdatePersonKeepsInvariants(s: State, now: Instant, patch: Patch)
    requires Consistent(s.db) && Coherent(s, now)
    ensures Consistent(UpdatePerson(s, now, patch).state.db)
    ensures Coherent(UpdatePerson(s, now, patch).state, now)
  {
    var r := UpdatePerson(s, now, patch);
    if patch.id in s.db.persons {
      forall other | Cache.Get(r.state.cache, now, other).Some?
        ensures other in r.state.db.persons && Cache.Get(r.state.cache, now, other).value == r.state.db.persons[other]
      {
        assert other != patch.id;
        var s1 := FindPersonById(s, now, patch.id).state;
        FindPersonByIdKeepsCoherent(s, now, patch.id);
        Cache.DelLeavesOtherIds(s1.cache, now, patch.id, other);
      }
    }
  }

  /**
   * An update touches at most the cache entries of its own id and of the
   * stored row's id (the same id in a consistent store): the lookup may set
   * one, the write deletes the other. Every other id reads the same
   * afterwards, at any clock.
   */
  lemma UpdateLeavesOtherIds(s: State, now: Instant, patch: Patch, t: Instant, other: Id)
    requires other != patch.id
    requires patch.id in s.db.persons ==> other != s.db.persons[patch.id].id
    ensures Cache.Get(UpdatePerson(s, now, patch).state.cache, t, other) == Cache.Get(s.cache, t, other)
  {
    FindLeavesOtherIds(s, now, patch.id, t, other);
    if patch.id in s.db.persons {
      var s1 := FindPersonById(s, now, patch.id).state;
      Cache.DelLeavesOtherIds(s1.cache, t, patch.id, other);
    }
  }

  /** An update whose clock is not behind the record's creation keeps `created <= modified`. */
  lemma UpdateKeepsCreatedBeforeModified(s: State, now: Instant, patch: Patch)
    requires patch.id in s.db.persons && s.db.persons[patch.id].created <= now
    ensures var row := UpdatePerson(s, now, patch).value.value;
      row.created == s.db.persons[patch.id].created <= row.modified == now
  {
  }

  /**
   * Two updates of one record, the second while the first's write is still
   * the stored row, leave what a single update with the composed patch
   * would: the later patch wins field by field.
   */
  lemma UpdateTwiceComposes(s: State, t1: Instant, t2: Instant, first: Patch, second: Patch)
    requires Consistent(s.db) && Coherent(s, t1) && t1 <= t2
    requires first.id == second.id && first.id in s.db.persons
    ensures var twice := UpdatePerson(UpdatePerson(s, t1, first).state, t2, second);
      var once := UpdatePerson(s, t2, Compose(first, second));
      twice.value == once.value && twice.state.db == once.state.db
  {
    var s1 := UpdatePerson(s, t1, first).state;
    var stored := s.db.persons[first.id];
    UpdatePersonKeepsInvariants(s, t1, first);
    UpdateWithCoherentCache(s, t1, first);
    CoherentLater(s1, t1, t2);
    UpdateWithCoherentCache(s1, t2, second);
    CoherentLater(s, t1, t2);
    UpdateWithCoherentCache(s, t2, Compose(first, second));
    MergeCompose(stored, first, second, t1, t2);
  }

  /** Repeating an update at the same instant writes the same row again. */
  lemma UpdateRepeatedIsStable(s: State, now: Instant, patch: Patch)
    requires patch.id in s.db.persons
    ensures var once := UpdatePerson(s, now, patch);
      var twice := UpdatePerson(once.state, now, patch);
      twice.value == once.value && twice.state.db == once.state.db
  {
    var s1 := UpdatePerson(s, now, patch).state;
    var cached := Cache.Get(s.cache, now, patch.id);
    var base := if cached.Some? then cached.value else s.db.persons[patch.id];
    MergeIdempotent(base, patch, now);
    assert Cache.Get(s1.cache, now, patch.id).None?;
  }

  // ---------------------------------------------------------------------------
  // Contacts

  lemma ContactOpsKeepInvariants(s: State, now: Instant, p: Id, c: Id, fault: Option<DbError>)
    requires Consistent(s.db) && Coherent(s, now)
    ensures Consistent(InsertContact(s, p, c, fault).state.db) && Coherent(InsertContact(s, p, c, fault).state, now)
    ensures Consistent(RemoveContact(s, p, c).state.db) && Coherent(RemoveContact(s, p, c).state, now)
  {
  }

  /** Removing an edge twice: the second removal finds nothing. */
  lemma RemoveContactTwice(s: State, p: Id, c: Id)
    ensures RemoveContact(RemoveContact(s, p, c).state, p, c).value == false
    ensures RemoveContact(RemoveContact(s, p, c).state, p, c).state == RemoveContact(s, p, c).state
  {
  }

  /** Inserting a new edge and removing it again restores the state. */
  lemma InsertThenRemoveContact(s: State, p: Id, c: Id)
    requires (p, c) !in s.db.contacts && InsertContact(s, p, c, None).value
    ensures RemoveContact(InsertContact(s, p, c, None).state, p, c) == Reply(true, s)
  {
    var s1 := InsertContact(s, p, c, None).state;
    assert s1.db.contacts - {(p, c)} == s.db.contacts;
  }

  /** An inserted edge is the one the relation then holds; the edge is directed, so the reverse is not implied. */
  lemma InsertContactIsDirected(s: State, p: Id, c: Id)
    requires p != c && (c, p) !in s.db.contacts && InsertContact(s, p, c, None).value
    ensures (p, c) in InsertContact(s, p, c, None).state.db.contacts
    ensures (c, p) !in InsertContact(s, p, c, None).state.db.contacts
  {
  }

  // ---------------------------------------------------------------------------
  // Paging

  /**
   * No two records of the table share an email. `ORDER BY email` then fixes
   * the listing order; with repeated emails the store may order the tied
   * rows differently from one query to the next.
   */
  predicate DistinctEmails(db: Db) {
    forall k, j :: k in db.persons && j in db.persons && k != j ==> db.persons[k].email != db.persons[j].email
  }

  /**
   * A client paging through the listing: fetch pages of `pageSize` at
   * offset "rows fetched so far" until the total count is reached.
   */
  function FetchAllPages(s: State, pageSize: nat, fetched: seq<Person>): seq<Person>
    requires pageSize > 0
    decreases |s.db.persons| - |fetched|
  {
    if |fetched| >= GetTotalPersonCount(s) then fetched
    else FetchAllPages(s, pageSize, fetched + Page(s.db, pageSize, |fetched|))
  }

  lemma PrefixThenPage(all: seq<Person>, fetched: seq<Person>, page: seq<Person>)
    requires |fetched| + |page| <= |all| && fetched == all[..|fetched|]
    requires forall i :: 0 <= i < |page| ==> page[i] == all[|fetched| + i]
    ensures fetched + page == all[..|fetched| + |page|]
  {
  }

  /** With distinct emails, the next page continues a fetched prefix of the listing by at least one record. */
  lemma NextPage(s: State, pageSize: nat, fetched: seq<Person>)
    requires pageSize > 0 && DistinctEmails(s.db)
    requires |fetched| < |s.db.persons| && fetched == Listing(s.db.persons)[..|fetched|]
    ensures var page := Page(s.db, pageSize, |fetched|);
      && 0 < |page| && |fetched| + |page| <= |s.db.persons|
      && fetched + page == Listing(s.db.persons)[..|fetched| + |page|]
  {
    PrefixThenPage(Listing(s.db.persons), fetched, Page(s.db, pageSize, |fetched|));
  }

  lemma {:induction false} FetchFromPrefix(s: State, pageSize: nat, fetched: seq<Person>)
    requires pageSize > 0 && DistinctEmails(s.db)
    requires |fetched| <= |s.db.persons| && fetched == Listing(s.db.persons)[..|fetched|]
    ensures FetchAllPages(s, pageSize, fetched) == Listing(s.db.persons)
    decreases |s.db.persons| - |fetched|
  {
    var all := Listing(s.db.persons);
    if |fetched| >= GetTotalPersonCount(s) {
      assert all[..|fetched|] == all;
    } else {
      NextPage(s, pageSize, fetched);
      FetchFromPrefix(s, pageSize, fetched + Page(s.db, pageSize, |fetched|));
    }
  }

  /** With distinct emails, paging from offset 0 with a fixed page size returns the whole listing, in order. */
  lemma PagingReturnsListing(s: State, pageSize: nat)
    requires pageSize > 0 && DistinctEmails(s.db)
    ensures FetchAllPages(s, pageSize, []) == Listing(s.db.persons)
  {
    FetchFromPrefix(s, pageSize, []);
  }

  /** `new Set(rows.map((p) => p.email))`. */
  function EmailSet(rows: seq<Person>): (emails: set<string>)
    ensures forall e :: e in emails <==> exists i :: 0 <= i < |rows| && rows[i].email == e
  {
    if rows == [] then {}
    else
      var n := |rows|;
      var before := EmailSet(rows[..n - 1]);
      assert forall i :: 0 <= i < n - 1 ==> rows[..n - 1][i] == rows[i];
      before + {rows[n - 1].email}
  }

  /** The number of distinct emails among `rows` is `|rows|` when no two rows share an email. */
  lemma {:induction false} DistinctEmailCount(rows: seq<Person>)
    requires forall i, j :: 0 <= i < j < |rows| ==> rows[i].email != rows[j].email
    ensures |EmailSet(rows)| == |rows|
    decreases |rows|
  {
    if rows != [] {
      var n := |rows|;
      DistinctEmailCount(rows[..n - 1]);
      assert rows[n - 1].email !in EmailSet(rows[..n - 1]);
    }
  }

  /**
   * With distinct emails and no writes in between, paging yields every
   * record of the table exactly once: as many distinct emails as the total
   * count, each stored record among them.
   */
  lemma PagingCoversEveryRecordOnce(s: State, pageSize: nat)
    requires pageSize > 0 && DistinctEmails(s.db)
    ensures var all := FetchAllPages(s, pageSize, []);
      && |all| == GetTotalPersonCount(s)
      && |EmailSet(all)| == GetTotalPersonCount(s)
      && forall k :: k in s.db.persons ==> s.db.persons[k] in all
  {
    PagingReturnsListing(s, pageSize);
    var m := s.db.persons;
    var all := Listing(m);
    var ks := SortedKeys(m);
    ListingAt(m);
    forall i, j | 0 <= i < j < |all|
      ensures all[i].email != all[j].email
    {
      assert ks[i] != ks[j];
    }
    DistinctEmailCount(all);
    forall k | k in m
      ensures m[k] in all
    {
      var i :| 0 <= i < |ks| && ks[i] == k;
      assert all[i] == m[k];
    }
  }

  // ---------------------------------------------------------------------------
  // An end-to-end run

  /**
   * Insert a record, look it up twice (the second from the cache), rename it,
   * and look it up again: the new name is served and `created` is kept.
   */
  lemma InsertLookupUpdateLookup(s: State, p: Person, t0: Instant, t1: Instant, t2: Instant, t3: Instant, newName: string)
    requires Consistent(s.db) && Coherent(s, t0) && p.id !in s.db.persons
    requires t0 <= t1 <= t0 + Cache.ExpirySeconds * Cache.MillisPerSecond && t1 <= t2 <= t3
    ensures var s1 := InsertPerson(s, p).state;
      var first := FindPersonById(s1, t0, p.id);
      var second := FindPersonById(first.state, t1, p.id);
      var patch := EmptyPatch(p.id).(name := Some(newName));
      var updated := UpdatePerson(second.state, t2, patch);
      var third := FindPersonById(updated.state, t3, p.id);
      && first.value == Some(p)
      && second == Reply(Some(p), first.state)
      && updated.value == Some(p.(name := newName, modified := t2))
      && third.value == updated.value
  {
    var s1 := InsertPerson(s, p).state;
    InsertPersonKeepsInvariants(s, t0, p);
    assert Cache.Get(s1.cache, t0, p.id).None?;
    RepeatLookupHitsCache(s1, t0, t1, p.id);
    var first := FindPersonById(s1, t0, p.id);
    FindPersonByIdKeepsCoherent(s1, t0, p.id);
    CoherentLater(first.state, t0, t2);
    var patch := EmptyPatch(p.id).(name := Some(newName));
    UpdateWithCoherentCache(first.state, t2, patch);
  }
}

=== FILE: wrappers.dfy ===
/** Failure-compatible Option and Result types used across the model. */
module Wrappers {

  /** Some value, or an explicit "absent" signal (JavaScript's `undefined`). */
  datatype Option<+T> = None | Some(value: T) {
    predicate IsFailure() {
      None?
    }

    function PropagateFailure<U>(): Option<U>
      requires None?
    {
      None
    }

    function Extract(): T
      requires Some?
    {
      value
    }
  }

  /** A value, or an error that the source would raise as an exception. */
  datatype Result<+T, +E> = Success(value: T) | Failure(error: E) {
    predicate IsFailure() {
      Failure?
    }

    function PropagateFailure<U>(): Result<U, E>
      requires Failure?
    {
      Failure(error)
    }

    function Extract(): T
      requires Success?
    {
      value
    }
  }
}
